=== FILE: README.md ===
# Node-group resolution and validation of the NUMA resources operator, in Dafny

This project models the part of the NUMA resources operator that turns the
node groups declared on the operator object into trees of machine pools, and
the checks it runs over them:

- **Resolution** (`NodeGroupTrees`).
  - On OpenShift, each node group is bound to the MachineConfigPools that
    carry its pool name and the pools that its MachineConfigPool selector
    matches. The outcome is all or nothing.
  - On hosted control planes, a node group that names a pool becomes a tree
    holding a selector on the `hypershift.openshift.io/node-pool` label.
  - Trees can be flattened into one pool list, and a tree can be cloned.
- **Validation** (`Validation`).
  - The six node-group checks run in order, and the first failure is
    reported.
  - Duplicated pools across the resolved trees are rejected.
  - The daemon sets the operator expects are compared with the ones it found,
    by name.
- **Policy switches** (`Annotations`): the SELinux custom-policy switch and
  the multiple-pools-per-tree switch read from the annotations.
- **Object names** (`ObjectNames`): the component and machine-config names,
  and how the pool name is recovered from a daemon-set name.

Supporting modules:

- `Wrappers`: `Option`, `Result` and `Outcome`.
- `Collections`: projection, filtering, counting and duplicate detection over
  sequences.
- `GoStrings`: the Go `strings` functions the operator calls (`TrimSpace`,
  `Replace`, `Index`).
- `StringOrder`: Go's byte-wise string order and the descending sort.
- `Selectors`: Kubernetes label selectors, stated abstractly as
  `WellFormed` (the selector parses) and `Matches`.
- `Api`: the records `NodeGroup`, `MachineConfigPool` and `NamespacedName`.
- `Fixtures`: the repository's unit-test scenarios restated on the model.

A `NodeGroup` carries four optional fields: `name`, `poolName`,
`mcpSelector` and `nodeSelector`. These are the fields the code reads; the
`Config` field is never read by this logic.

The Go code joins its error messages while ranging over a map, so their order
is not defined. The model's errors therefore carry the set of offending keys
instead of a string.

### Behaviour of the code worth knowing

- The resolver has no single-pool rule. A selector that matches several pools
  binds all of them (`Fixtures.TwoPoolsFixture`). The multiple-pools
  annotation is never consulted. The resolver's unit test still expects no
  trees in that case, but it calls an older `FindTrees` entry point that is not
  part of this model.
- A node group whose MachineConfigPool selector does not parse is dropped
  without an error (`NodeGroupTrees.MalformedSelectorSkipped`). This happens
  after the pool-name ambiguity check.
- The name check only rejects the character `' '` inside a name. A tab or
  other white space between two visible characters passes; white space at
  either end fails (`Validation.ValidName`).
- The selector well-formedness loop keeps its `selector` variable across
  iterations. A group with no selector at all therefore re-checks the previous
  group's selector (`Validation.SelectorInUse`). When a group has both
  selectors, the node selector is the one checked.
- Selector exclusivity ignores `poolName`: a group that names a pool but has
  no selector fails validation.

## Model

| member | source | states |
|---|---|---|
| `NodeGroupTrees.Clone` | api/numaresourcesoperator/v1/helper/nodegroup/nodegroup.go:37-46 | The copy has the same node group, the same number of pools and equal pools position by position, and no node-pool selector; a tree without a node-pool selector is copied to an equal tree |
| `NodeGroupTrees.FindTreesHCP` | api/numaresourcesoperator/v1/helper/nodegroup/nodegroup.go:49-70 | The trees' node groups are exactly the input groups that name a pool, in input order; each tree has no pools and a selector on the node-pool label holding that pool name |
| `NodeGroupTrees.NodePoolSelectorSelectsPool` | api/numaresourcesoperator/v1/helper/nodegroup/nodegroup.go:62-66 | That selector parses and matches exactly the label sets whose node-pool label equals the pool name |
| `NodeGroupTrees.PoolsByName` | api/numaresourcesoperator/v1/helper/nodegroup/nodegroup.go:80-87 | A pool is collected by name exactly when it is a candidate whose name equals the group's pool name |
| `NodeGroupTrees.PoolsBySelector` | api/numaresourcesoperator/v1/helper/nodegroup/nodegroup.go:93-107 | A pool is collected by selector exactly when it is a candidate that the group's parsed selector matches; none when the selector is absent or does not parse |
| `NodeGroupTrees.CollectedInCandidateOrder` | api/numaresourcesoperator/v1/helper/nodegroup/nodegroup.go:80-107 | Both collections keep the candidates in candidate order, at strictly increasing candidate positions, and each kept candidate as often as it occurs among the candidates |
| `NodeGroupTrees.ResolveNodeGroup` | api/numaresourcesoperator/v1/helper/nodegroup/nodegroup.go:76-115 | One loop iteration. It fails as ambiguous iff more than one candidate carries the pool name, and that error carries the pool name and the number of candidates with it. It skips the group iff the name is not ambiguous and the selector does not parse. A bound list is non-empty, name matches then selector matches, and holds exactly the candidates the group claims. It fails with "no pool found" iff the group claims no candidate and is neither ambiguous nor skipped, and that error carries the group's MachineConfigPool selector |
| `NodeGroupTrees.FindTreesOpenshift` | api/numaresourcesoperator/v1/helper/nodegroup/nodegroup.go:72-119 | It succeeds iff no node group is unresolved; a failure carries the error of the first unresolved group. On success there is one tree per group that is not skipped, in input order, each with no node-pool selector and the pools its group binds |
| `NodeGroupTrees.FindTreesOpenshiftStep` | api/numaresourcesoperator/v1/helper/nodegroup/nodegroup.go:76-118 | Node groups are handled front to back. An unresolved first group fails the call with its own error; a skipped one leaves the result of the rest; a bound one heads the trees of the rest, or the rest's failure wins |
| `NodeGroupTrees.ResolvedTreeContents` | api/numaresourcesoperator/v1/helper/nodegroup/nodegroup.go:100-115 | Every resolved tree's pools are non-empty and are the name-matched pools followed by the selector-matched ones; they are exactly the candidates its group claims, and its group is one of the input groups |
| `NodeGroupTrees.GroupWithoutPoolSourceFails` | api/numaresourcesoperator/v1/helper/nodegroup/nodegroup.go:109-111 | A group with neither pool name nor MachineConfigPool selector makes the whole call fail |
| `NodeGroupTrees.AmbiguousPoolNameFails` | api/numaresourcesoperator/v1/helper/nodegroup/nodegroup.go:80-91 | Two candidates carrying a group's pool name make the whole call fail |
| `NodeGroupTrees.MalformedSelectorSkipped` | api/numaresourcesoperator/v1/helper/nodegroup/nodegroup.go:93-98 | A group with a selector that does not parse and no pool name yields no tree and no error |
| `NodeGroupTrees.Flatten` | api/numaresourcesoperator/v1/helper/nodegroup/nodegroup.go:129-135 | Every pool some tree lists is in the flattened list, and every pool in the flattened list is listed by some tree. A single tree flattens to exactly its own pool list, in order and with repeats |
| `NodeGroupTrees.FlattenMembership` | api/numaresourcesoperator/v1/helper/nodegroup/nodegroup.go:129-135 | A pool is in the flattened list exactly when some tree lists it |
| `NodeGroupTrees.FlattenAppend` | api/numaresourcesoperator/v1/helper/nodegroup/nodegroup.go:129-135 | Flattening distributes over concatenation of tree lists. With the single-tree law of `Flatten`, this fixes the result as every tree's pools in tree order, with duplicates kept |
| `NodeGroupTrees.FindMachineConfigPools` | api/numaresourcesoperator/v1/helper/nodegroup/nodegroup.go:121-127 | The resolver's error is passed on unchanged; on success the result is the flattened trees, and every pool in it is a candidate some node group claims |
| `Validation.MachineConfigPoolDuplicates` | pkg/validation/validation.go:38-58 | It passes iff no two positions of the flattened trees hold pools of the same name; a failure names exactly the pool names held at two positions |
| `Validation.RepeatedNames` | pkg/validation/validation.go:39-51 | The names counted more than once are exactly the names held at two positions of the pool list |
| `Validation.PoolInTwoTreesFails` | pkg/validation/validation.go:40-53 | A pool name listed in two different trees is reported |
| `Validation.PoolTwiceInOneTreeFails` | pkg/validation/validation.go:40-53 | A pool name listed twice inside one tree is reported too |
| `Validation.SelectorExclusivityFrom` | pkg/validation/validation.go:90-101 | It passes iff every group has exactly one of the two selectors; otherwise the first group with none reports a missing selector, and the first group with both reports multiple selectors |
| `Validation.CheckMcpSelectorDuplicates` | pkg/validation/validation.go:104-130 | It passes iff no two groups declare the same MachineConfigPool selector; a failure names exactly the selectors two groups declare |
| `Validation.CheckNodeSelectorDuplicates` | pkg/validation/validation.go:133-159 | The same rule over node selectors |
| `Validation.CheckNameDuplicates` | pkg/validation/validation.go:162-188 | It passes iff no two groups carry the same name, with unnamed groups never counted; a failure names exactly the repeated names |
| `Validation.MalformedFrom` | pkg/validation/validation.go:191-206 | Only selectors that do not parse are collected, and each is the carried-over selector or one a group from position `k` on declares. Once every group declares a selector, every declared malformed selector is collected, and nothing is collected iff all declared selectors parse |
| `Validation.CheckLabelSelectors` | pkg/validation/validation.go:191-213 | A failure lists at least one selector, and every selector it lists is malformed and declared by some group. When every group declares a selector, it passes iff all declared selectors parse, and a failure lists every malformed one |
| `Validation.NameAcceptedIffValid` | pkg/validation/validation.go:222-224 | Trimming white space and deleting every `' '` gives the name back, non-empty, iff the name is non-empty, has no white space at either end and contains no `' '` |
| `Validation.NameHygieneFrom` | pkg/validation/validation.go:216-229 | It passes iff every present name is valid; absent names are skipped; a failure reports the first invalid name |
| `Validation.NodeGroups` | pkg/validation/validation.go:62-87 | It passes iff all six properties hold. Otherwise the result is exactly the outcome of the first check that fails, error and payload included, in the order exclusivity, MachineConfigPool selector duplicates, node selector duplicates, parsing, name hygiene, name duplicates |
| `Validation.UnknownOperatorRejected` | pkg/validation/validation.go:191-206 | An operator outside In, NotIn, Exists and DoesNotExist in the selector any group declares makes validation fail, whatever the other groups hold |
| `Validation.EqualNamespacedDSSlicesByName` | pkg/validation/validation.go:232-242 | It passes iff both lists hold the same names the same number of times, namespaces ignored; lists of different lengths always fail |
| `StringOrder.SortDescending` | pkg/validation/validation.go:233-234 | The result is in non-increasing byte-wise order and is a permutation of the input |
| `StringOrder.SortedUnique` | pkg/validation/validation.go:233-237 | Two non-increasing arrangements of the same multiset of strings are equal, so comparing sorted lists position by position compares multisets |
| `StringOrder.SortEqualIffSameMultiset` | pkg/validation/validation.go:233-237 | Two lists sort to the same list exactly when they hold the same strings the same number of times |
| `GoStrings.TrimSpace` | pkg/validation/validation.go:222 | The result is a slice `s[a..b]` of the input with only white space before `a` and after `b`, and no white space at either end of its own; it equals the input iff the input is empty or has no white space at either end |
| `GoStrings.RemoveAll` | pkg/validation/validation.go:223 | The result is the input filtered to the characters other than the removed one, in their original order; that character no longer occurs, every other character keeps its count, and the length drops by the number of occurrences removed |
| `GoStrings.Index` | pkg/objectnames/objectnames.go:38 | The position found holds an occurrence and no earlier position does; there is no result iff there is no occurrence |
| `GoStrings.ReplaceFirst` | pkg/objectnames/objectnames.go:38 | For a non-empty pattern, without an occurrence the string is unchanged and otherwise exactly the first occurrence is replaced. An empty pattern matches at the start, so the replacement is prepended |
| `Selectors.UnknownOperatorMalformed` | pkg/validation/validation.go:203 | An operator outside the known four makes the selector fail to parse |
| `Selectors.MatchLabelsSemantics` | api/numaresourcesoperator/v1/helper/nodegroup/nodegroup.go:100-105 | A selector of match labels alone parses and matches exactly the label sets containing those labels; the empty selector matches everything |
| `Annotations.IsCustomPolicyEnabled` | internal/api/annotations/annotations.go:27-32 | True iff the SELinux policy annotation is present with value exactly `custom` |
| `Annotations.IsMultiplePoolsPerTree` | internal/api/annotations/annotations.go:34-39 | True iff the multiple-pools annotation is present with value exactly `enabled` |
| `Annotations.PredicatesReadOnlyTheirKey` | internal/api/annotations/annotations.go:28-35 | Setting or removing any other key leaves each switch unchanged |
| `Annotations.DefaultsAreOff` | internal/api/annotations/annotations_test.go:27-79 | No annotations, or the value `true`, leaves both switches off; the exact keywords turn them on |
| `ObjectNames.GetComponentName` | pkg/objectnames/objectnames.go:33-35 | The instance name, a dash and the pool name, in that order |
| `ObjectNames.GetMachineConfigName` | pkg/objectnames/objectnames.go:29-31 | The component name behind the prefix `51-` |
| `ObjectNames.ExtractAssociatedNameFromRTEDaemonset` | pkg/objectnames/objectnames.go:37-39 | Without an occurrence of the instance name and a dash the name is unchanged; otherwise exactly the first such occurrence is cut out |
| `ObjectNames.ExtractInvertsComponentName` | pkg/objectnames/objectnames.go:33-39 | Extracting from a component name gives back the pool name |
| `ObjectNames.ComponentNameInvertsExtract` | pkg/objectnames/objectnames.go:33-39 | A daemon-set name that starts with the instance name and a dash is the component name of what extraction leaves |
| `Fixtures.NoNodeGroupsFixture` | api/numaresourcesoperator/v1/helper/nodegroup/nodegroup_test.go:83-86 | No node groups give no trees and no pools, and pass validation |
| `Fixtures.SinglePoolFixture` | api/numaresourcesoperator/v1/helper/nodegroup/nodegroup_test.go:87-107 | On the five test pools, the selector `mcp-label-2a=test2a` gives one tree bound to `mcp2` |
| `Fixtures.TwoPoolsFixture` | api/numaresourcesoperator/v1/helper/nodegroup/nodegroup_test.go:109-120 | The selector `mcp-label-3=test3` gives one tree bound to both `mcp3` and `mcp5` |
| `Fixtures.NotFoundFixture` | api/numaresourcesoperator/v1/helper/nodegroup/nodegroup_test.go:122-140 | Adding a group whose selector matches nothing fails the call with that group's selector |
| `Fixtures.NameAndSelectorFixture` | api/numaresourcesoperator/v1/helper/nodegroup/nodegroup.go:80-107 | A pool named by the group and also matched by its selector is bound twice, name match first |
| `Fixtures.SamePoolNameTwiceFixture` | pkg/validation/validation_test.go:42-54 | Two pools of the same name in one tree fail, naming that pool |
| `Fixtures.DistinctPoolNamesFixture` | pkg/validation/validation_test.go:55-64 | Two pools of different names pass |
| `Fixtures.NoSelectorFixture` | pkg/validation/validation_test.go:102-118 | A first group without a selector fails with a missing selector |
| `Fixtures.BothSelectorsFixture` | pkg/validation/validation_test.go:120-144 | A first group with both selectors fails with multiple selectors |
| `Fixtures.SameMcpSelectorFixture` | pkg/validation/validation_test.go:146-165 | Two groups with the same MachineConfigPool selector fail, naming it |
| `Fixtures.SameNodeSelectorFixture` | pkg/validation/validation_test.go:167-186 | Two groups with the same node selector fail, naming it |
| `Fixtures.DifferentNodeSelectorsFixture` | pkg/validation/validation_test.go:188-207 | Different, even overlapping, node selectors pass |
| `Fixtures.MixedSelectorsFixture` | pkg/validation/validation_test.go:228-252 | A MachineConfigPool selector equal to another group's node selector does not clash |
| `Fixtures.BadOperatorFixture` | pkg/validation/validation_test.go:209-226 | A selector with an unknown operator fails, and it is the one selector reported |
| `Fixtures.NameFixture` | pkg/validation/validation_test.go:254-310 | A single named group fails with its name exactly when the name is invalid, and passes otherwise |
| `Fixtures.TestNamesFixture` | pkg/validation/validation_test.go:254-310 | `mcp test`, a name of white space only, and the empty name are invalid; `mcp-test` is valid |
| `Fixtures.SameNameFixture` | pkg/validation/validation.go:162-188 | Two groups carrying the same valid name fail, naming it |
| `Fixtures.SameNamesFixture` | pkg/validation/validation_test.go:347-368 | The same names in another order and in other namespaces agree |
| `Fixtures.DifferentNamesFixture` | pkg/validation/validation_test.go:397-420 | A name listed once on one side and twice on the other disagrees, even at equal length |

## Left out

- Label-selector internals: the label-key and label-value grammar, and the
  `String()` rendering. `Selectors.WellFormed` only checks non-empty keys, the
  operator and the number of values, so it accepts keys Kubernetes would
  refuse. Duplicate selectors are compared by value instead of by their
  rendered string.
- The error messages themselves. Errors carry the offending keys; the Go
  message order over a map is not defined.
- `Validation.CheckLabelSelectors`: when a group without any selector is
  present, the contract does not say which carried-over selector is checked,
  only that every selector listed is one some group declares.
  That case is always rejected earlier by the exclusivity check, and
  `Validation.MalformedFrom` models the carried selector exactly.
- `Validation.EqualNamespacedDSSlicesByName`: the Go function sorts its two
  argument slices in place. The model only states the outcome.
- Logging of a malformed selector in the resolver.
- Pointers and deep copies: trees hold values, so sharing and copying are not
  observable.
- The `Config` field of a node group, which this logic never reads.
- `IsMultiplePoolsPerTree` is modelled, but the resolver does not consult it,
  as in the code.
- Byte strings: Go strings are byte sequences, while `GoStrings` works on
  Unicode scalar values (`char`). The two agree on valid UTF-8, which is what
  Kubernetes API objects carry; invalid UTF-8 is not modelled.

=== FILE: annotations.dfy ===
/** Policy switches read from the annotations of the operator object. */
module Annotations {
  import opened Wrappers

  type Annotations = map<string, string>

  const SELinuxPolicyConfigAnnotation := "config.node.openshift-kni.io/selinux-policy"
  const SELinuxPolicyCustom := "custom"
  /** Re-enables several pools per tree; off by default. */
  const MultiplePoolsPerTreeAnnotation := "experimental.multiple-pools-per-tree"
  const MultiplePoolsPerTreeEnabled := "enabled"

  /** Go's `v, ok := annot[key]`. */
  function Lookup(annot: Annotations, key: string): (r: Option<string>)
    ensures r.Some? <==> key in annot
    ensures r.Some? ==> r.value == annot[key]
  {
    if key in annot then Some(annot[key]) else None
  }

  /** `IsCustomPolicyEnabled`: the SELinux policy annotation is present and
      says exactly "custom". */
  function IsCustomPolicyEnabled(annot: Annotations): (r: bool)
    ensures r <==> SELinuxPolicyConfigAnnotation in annot && annot[SELinuxPolicyConfigAnnotation] == SELinuxPolicyCustom
  {
    match Lookup(annot, SELinuxPolicyConfigAnnotation)
    case Some(v) => v == SELinuxPolicyCustom
    case None => false
  }

  /** `IsMultiplePoolsPerTree`: the multiple-pools annotation is present and
      says exactly "enabled". */
  function IsMultiplePoolsPerTree(annot: Annotations): (r: bool)
    ensures r <==> MultiplePoolsPerTreeAnnotation in annot && annot[MultiplePoolsPerTreeAnnotation] == MultiplePoolsPerTreeEnabled
  {
    match Lookup(annot, MultiplePoolsPerTreeAnnotation)
    case Some(v) => v == MultiplePoolsPerTreeEnabled
    case None => false
  }

  /** Each predicate reads only its own key: setting or removing any other
      key leaves it unchanged. */
  lemma PredicatesReadOnlyTheirKey(annot: Annotations, k: string, v: string)
    ensures k != SELinuxPolicyConfigAnnotation ==>
      IsCustomPolicyEnabled(annot[k := v]) == IsCustomPolicyEnabled(annot) == IsCustomPolicyEnabled(annot - {k})
    ensures k != MultiplePoolsPerTreeAnnotation ==>
      IsMultiplePoolsPerTree(annot[k := v]) == IsMultiplePoolsPerTree(annot) == IsMultiplePoolsPerTree(annot - {k})
  {
  }

  /** No annotations, or a value other than the exact keyword, means the
      default (off) for both switches. */
  lemma DefaultsAreOff()
    ensures !IsCustomPolicyEnabled(map[]) && !IsMultiplePoolsPerTree(map[])
    ensures !IsCustomPolicyEnabled(map[SELinuxPolicyConfigAnnotation := "true"])
    ensures !IsMultiplePoolsPerTree(map[MultiplePoolsPerTreeAnnotation := "true"])
    ensures IsCustomPolicyEnabled(map[SELinuxPolicyConfigAnnotation := "custom"])
    ensures IsMultiplePoolsPerTree(map[MultiplePoolsPerTreeAnnotation := "enabled"])
  {
  }
}

=== FILE: api.dfy ===
/** The records of the operator's API that the Go code reads. */
module Api {
  import opened Wrappers
  import opened Selectors

  /** A node group as the Go code sees it: every field is an optional
      pointer. `mcpSelector` and `nodeSelector` are meant to be mutually
      exclusive, and `poolName` is the alternative to `mcpSelector`, read by
      both the OpenShift and the hosted-control-plane resolvers. The
      per-group `Config` is never read here and is not modelled. */
  datatype NodeGroup = NodeGroup(
    name: Option<string>,
    poolName: Option<string>,
    mcpSelector: Option<LabelSelector>,
    nodeSelector: Option<LabelSelector>)

  /** A discovered MachineConfigPool: its name and its labels. */
  datatype MachineConfigPool = MachineConfigPool(name: string, labels: Labels)

  /** `NamespacedName` of a daemon set. */
  datatype NamespacedName = NamespacedName(namespace: string, name: string)
}

=== FILE: collections.dfy ===
/** Sequence helpers behind the Go code's loops: projecting and filtering a
    slice, skipping nil pointers, and the `map[key]int` counting idiom used
    to find keys that occur more than once. */
module Collections {
  import opened Wrappers

  /** The elements of `s` that satisfy `f`, in their original order. */
  function Filter<T(!new)>(f: T -> bool, s: seq<T>): (r: seq<T>)
    ensures |r| <= |s|
    ensures forall x :: x in r <==> x in s && f(x)
  {
    if s == [] then []
    else
      assert s == [s[0]] + s[1..];
      (if f(s[0]) then [s[0]] else []) + Filter(f, s[1..])
  }

  lemma FilterCons<T(!new)>(f: T -> bool, x: T, s: seq<T>)
    ensures Filter(f, [x] + s) == (if f(x) then [x] else []) + Filter(f, s)
  {
    assert ([x] + s)[1..] == s;
  }

  /** `f` applied to every element, in order. */
  function Map<A, B>(f: A -> B, s: seq<A>): (r: seq<B>)
    ensures |r| == |s| && forall i :: 0 <= i < |s| ==> r[i] == f(s[i])
  {
    seq(|s|, i requires 0 <= i < |s| => f(s[i]))
  }

  /** Filtering keeps every wanted element as often as it occurs, and drops
      every other. */
  lemma {:induction false} FilterCount<T(!new)>(f: T -> bool, s: seq<T>, x: T)
    ensures multiset(Filter(f, s))[x] == if f(x) then multiset(s)[x] else 0
  {
    if s != [] {
      assert s == [s[0]] + s[1..];
      FilterCount(f, s[1..], x);
    }
  }

  /** Filtering keeps the relative order of the kept elements: `idx` maps
      every position of the result to a strictly later position of `s`
      than the one before it. */
  lemma {:induction false} FilterKeepsOrder<T(!new)>(f: T -> bool, s: seq<T>) returns (idx: seq<nat>)
    ensures IndexesInOrder(idx, Filter(f, s), s)
  {
    if s == [] {
      idx := [];
    } else {
      var rest := FilterKeepsOrder(f, s[1..]);
      assert s == [s[0]] + s[1..];
      if f(s[0]) {
        idx := ExtendIndexes(s[0], rest, Filter(f, s[1..]), s[1..], true);
      } else {
        idx := ExtendIndexes(s[0], rest, Filter(f, s[1..]), s[1..], false);
      }
    }
  }

  /** `idx` lists, strictly increasing, positions of `s` that hold `r` in order. */
  ghost predicate IndexesInOrder<T>(idx: seq<nat>, r: seq<T>, s: seq<T>) {
    && |idx| == |r|
    && (forall k :: 0 <= k < |idx| ==> idx[k] < |s| && s[idx[k]] == r[k])
    && (forall k, l :: 0 <= k < l < |idx| ==> idx[k] < idx[l])
  }

  /** Extends a witness for `r` in `s` to one for `r` (or `[x] + r`) in `[x] + s`. */
  lemma ExtendIndexes<T>(x: T, idx: seq<nat>, r: seq<T>, s: seq<T>, keep: bool) returns (idx': seq<nat>)
    requires IndexesInOrder(idx, r, s)
    ensures IndexesInOrder(idx', if keep then [x] + r else r, [x] + s)
  {
    var shifted := seq(|idx|, k requires 0 <= k < |idx| => idx[k] + 1);
    assert forall k :: 0 <= k < |shifted| ==> ([x] + s)[shifted[k]] == s[idx[k]];
    if keep {
      idx' := [0] + shifted;
      assert forall k :: 0 < k < |idx'| ==> idx'[k] == shifted[k - 1];
    } else {
      idx' := shifted;
    }
  }

  /** Two distinct positions holding wanted elements leave at least two elements. */
  lemma {:induction false} FilterTwoHits<T(!new)>(f: T -> bool, s: seq<T>, a: nat, b: nat)
    requires a < b < |s| && f(s[a]) && f(s[b])
    ensures |Filter(f, s)| >= 2
  {
    assert s == [s[0]] + s[1..];
    if a == 0 {
      assert s[1..][b - 1] in Filter(f, s[1..]);
    } else {
      FilterTwoHits(f, s[1..], a - 1, b - 1);
    }
  }

  /** Filtering with a predicate that holds of every element is the identity;
      with one that holds of none it is empty. */
  lemma {:induction false} FilterExtremes<T(!new)>(f: T -> bool, s: seq<T>)
    ensures (forall x :: x in s ==> f(x)) ==> Filter(f, s) == s
    ensures (forall x :: x in s ==> !f(x)) ==> Filter(f, s) == []
  {
    if s != [] {
      assert s == [s[0]] + s[1..];
      assert forall x :: x in s[1..] ==> x in s;
      FilterExtremes(f, s[1..]);
      FilterCons(f, s[0], s[1..]);
    }
  }

  /** The values behind the non-nil entries of `s`, in order (the Go code's
      `if x == nil { continue }`). */
  function Present<T(!new)>(s: seq<Option<T>>): (r: seq<T>)
    ensures |r| <= |s|
    ensures forall x :: multiset(r)[x] == multiset(s)[Some(x)]
  {
    if s == [] then []
    else
      assert s == [s[0]] + s[1..];
      (if s[0].Some? then [s[0].value] else []) + Present(s[1..])
  }

  /** The Go code's counting map: every key of `s` mapped to how often it
      occurs. Built element by element, like `duplicates[key] += 1`. */
  function Tally<T(!new)>(s: seq<T>): (m: map<T, nat>)
    ensures forall x :: x in m <==> x in s
    ensures forall x :: x in m ==> m[x] == multiset(s)[x]
  {
    if s == [] then map[]
    else
      var init := s[..|s| - 1];
      var x := s[|s| - 1];
      assert s == init + [x];
      var m := Tally(init);
      m[x := (if x in m then m[x] else 0) + 1]
  }

  /** The keys whose tally is above one. */
  function Duplicates<T(!new)>(s: seq<T>): (d: set<T>)
    ensures forall x :: x in d <==> multiset(s)[x] >= 2
  {
    var m := Tally(s);
    set x | x in m && m[x] > 1
  }

  /** An element occurs at least twice exactly when two distinct positions hold it. */
  lemma {:induction false} TwiceIffTwoPositions<T>(s: seq<T>, x: T)
    ensures multiset(s)[x] >= 2 <==> exists i, j :: 0 <= i < j < |s| && s[i] == x && s[j] == x
  {
    if s != [] {
      assert s == [s[0]] + s[1..];
      TwiceIffTwoPositions(s[1..], x);
      if multiset(s)[x] >= 2 {
        if s[0] == x {
          assert x in s[1..];
          var j :| 0 <= j < |s[1..]| && s[1..][j] == x;
          assert s[0] == x && s[j + 1] == x;
        } else {
          var i, j :| 0 <= i < j < |s[1..]| && s[1..][i] == x && s[1..][j] == x;
          assert s[i + 1] == x && s[j + 1] == x;
        }
      }
      if exists i, j :: 0 <= i < j < |s| && s[i] == x && s[j] == x {
        var i, j :| 0 <= i < j < |s| && s[i] == x && s[j] == x;
        if i == 0 {
          assert s[1..][j - 1] == x;
        } else {
          assert s[1..][i - 1] == x && s[1..][j - 1] == x;
        }
      }
    }
  }

  /** The duplicated keys among the non-nil entries of `s`: exactly the
      values held by two distinct positions. */
  function RepeatedValues<T(!new)>(s: seq<Option<T>>): (d: set<T>)
    ensures forall x :: x in d <==> exists i, j :: 0 <= i < j < |s| && s[i] == Some(x) && s[j] == Some(x)
  {
    var d := Duplicates(Present(s));
    assert forall x :: x in d <==> multiset(s)[Some(x)] >= 2;
    forall x ensures multiset(s)[Some(x)] >= 2 <==> exists i, j :: 0 <= i < j < |s| && s[i] == Some(x) && s[j] == Some(x) {
      TwiceIffTwoPositions(s, Some(x));
    }
    d
  }
}

=== FILE: fixtures.dfy ===
/** The scenarios of the repository's unit tests, restated on the model.
    The resolver cases are stated on the five test pools; the validation cases
    are stated for every selector, name or pool of the same shape. */
module Fixtures {
  import opened Wrappers
  import opened Selectors
  import opened Api
  import opened Collections
  import opened NodeGroupTrees
  import opened Validation

  // ----- resolution against the five test pools -----

  const Mcp1 := MachineConfigPool("mcp1", map["mcp-label-1" := "test1"])
  const Mcp2 := MachineConfigPool("mcp2", map["mcp-label-2" := "test2", "mcp-label-2a" := "test2a"])
  const Mcp3 := MachineConfigPool("mcp3", map["mcp-label-3" := "test3"])
  const Mcp4 := MachineConfigPool("mcp4", map["mcp-label-2" := "test2"])
  const Mcp5 := MachineConfigPool("mcp5", map["mcp-label-3" := "test3"])
  const TestPools := [Mcp1, Mcp2, Mcp3, Mcp4, Mcp5]

  /** No node groups: no trees, and nothing to reject. */
  lemma NoNodeGroupsFixture()
    ensures FindTreesOpenshift(TestPools, []) == Success([])
    ensures FindMachineConfigPools(TestPools, []) == Success([])
    ensures NodeGroups([]) == Pass
  {
    assert Flatten([]) == [];
  }

  /** A node group selecting pools by one match label. */
  function SelectorGroup(key: string, value: string): NodeGroup {
    NodeGroup(None, None, Some(LabelSelector(map[key := value], [])), None)
  }

  /** A selector of one match label claims exactly the pools carrying that
      label with that value. */
  lemma OneLabelClaims(ng: NodeGroup, key: string, value: string, p: MachineConfigPool)
    requires key != [] && ng.mcpSelector == Some(LabelSelector(map[key := value], []))
    ensures SelectorClaims(ng, p) <==> key in p.labels && p.labels[key] == value
  {
    MatchLabelsSemantics(map[key := value], p.labels);
  }

  function Keep<T>(f: T -> bool, x: T): seq<T> {
    if f(x) then [x] else []
  }

  /** Filtering five candidates decides each one on its own. */
  lemma FilterFive<T(!new)>(f: T -> bool, a: T, b: T, c: T, d: T, e: T)
    ensures Filter(f, [a, b, c, d, e]) == Keep(f, a) + (Keep(f, b) + (Keep(f, c) + (Keep(f, d) + (Keep(f, e) + []))))
  {
    var s4 := [e];
    var s3 := [d] + s4;
    var s2 := [c] + s3;
    var s1 := [b] + s2;
    var s0 := [a] + s1;
    assert s0 == [a, b, c, d, e];
    FilterCons(f, e, []);
    assert s4 == [e] + [];
    FilterCons(f, d, s4);
    FilterCons(f, c, s3);
    FilterCons(f, b, s2);
    FilterCons(f, a, s1);
  }

  /** The four ways the test pools get filtered, decided candidate by candidate. */
  lemma KeepNone<T(!new)>(f: T -> bool, a: T, b: T, c: T, d: T, e: T)
    requires !f(a) && !f(b) && !f(c) && !f(d) && !f(e)
    ensures Filter(f, [a, b, c, d, e]) == []
  {
    FilterFive(f, a, b, c, d, e);
  }

  lemma KeepSecond<T(!new)>(f: T -> bool, a: T, b: T, c: T, d: T, e: T)
    requires !f(a) && f(b) && !f(c) && !f(d) && !f(e)
    ensures Filter(f, [a, b, c, d, e]) == [b]
  {
    FilterFive(f, a, b, c, d, e);
  }

  lemma KeepSecondFourth<T(!new)>(f: T -> bool, a: T, b: T, c: T, d: T, e: T)
    requires !f(a) && f(b) && !f(c) && f(d) && !f(e)
    ensures Filter(f, [a, b, c, d, e]) == [b, d]
  {
    FilterFive(f, a, b, c, d, e);
    assert [b] + ([] + ([d] + ([] + []))) == [b, d];
  }

  lemma KeepThirdFifth<T(!new)>(f: T -> bool, a: T, b: T, c: T, d: T, e: T)
    requires !f(a) && !f(b) && f(c) && !f(d) && f(e)
    ensures Filter(f, [a, b, c, d, e]) == [c, e]
  {
    FilterFive(f, a, b, c, d, e);
    assert [c] + ([] + ([e] + [])) == [c, e];
  }

  /** One node group that binds `found` gives exactly one tree. */
  lemma OneBoundGroup(pools: seq<MachineConfigPool>, ng: NodeGroup, found: seq<MachineConfigPool>)
    requires ResolveNodeGroup(pools, ng) == Bound(found)
    ensures FindTreesOpenshift(pools, [ng]) == Success([Tree(ng, found, None)])
  {
    FindTreesOpenshiftStep(pools, ng, []);
    assert [ng] + [] == [ng];
    assert FindTreesOpenshift(pools, []) == Success([]);
    assert [Tree(ng, found, None)] + [] == [Tree(ng, found, None)];
  }

  /** The selector `mcp-label-2a=test2a` matches `mcp2` alone. */
  lemma Label2aMatches()
    ensures PoolsBySelector(TestPools, SelectorGroup("mcp-label-2a", "test2a")) == [Mcp2]
  {
    var key := "mcp-label-2a";
    var ng := SelectorGroup(key, "test2a");
    assert key != [] && key !in Mcp1.labels && key !in Mcp3.labels && key !in Mcp4.labels && key !in Mcp5.labels;
    OneLabelClaims(ng, key, "test2a", Mcp1);
    OneLabelClaims(ng, key, "test2a", Mcp2);
    OneLabelClaims(ng, key, "test2a", Mcp3);
    OneLabelClaims(ng, key, "test2a", Mcp4);
    OneLabelClaims(ng, key, "test2a", Mcp5);
    var f := (p: MachineConfigPool) => SelectorClaims(ng, p);
    assert !f(Mcp1) && f(Mcp2) && !f(Mcp3) && !f(Mcp4) && !f(Mcp5);
    KeepSecond(f, Mcp1, Mcp2, Mcp3, Mcp4, Mcp5);
  }

  /** So the node group resolves to one tree over `mcp2`. */
  lemma SinglePoolFixture()
    ensures FindTreesOpenshift(TestPools, [SelectorGroup("mcp-label-2a", "test2a")])
         == Success([Tree(SelectorGroup("mcp-label-2a", "test2a"), [Mcp2], None)])
  {
    var ng := SelectorGroup("mcp-label-2a", "test2a");
    Label2aMatches();
    assert PoolsByName(TestPools, ng) == [];
    OneBoundGroup(TestPools, ng, [Mcp2]);
  }

  /** The selector `mcp-label-3=test3` matches `mcp3` and `mcp5`. */
  lemma Label3Matches()
    ensures PoolsBySelector(TestPools, SelectorGroup("mcp-label-3", "test3")) == [Mcp3, Mcp5]
  {
    var ng := SelectorGroup("mcp-label-3", "test3");
    Label3Claims(ng);
    var f := (p: MachineConfigPool) => SelectorClaims(ng, p);
    assert !f(Mcp1) && !f(Mcp2) && f(Mcp3) && !f(Mcp4) && f(Mcp5);
    KeepThirdFifth(f, Mcp1, Mcp2, Mcp3, Mcp4, Mcp5);
  }

  lemma Label3Claims(ng: NodeGroup)
    requires ng.mcpSelector == Some(LabelSelector(map["mcp-label-3" := "test3"], []))
    ensures !SelectorClaims(ng, Mcp1) && !SelectorClaims(ng, Mcp2) && SelectorClaims(ng, Mcp3)
    ensures !SelectorClaims(ng, Mcp4) && SelectorClaims(ng, Mcp5)
  {
    var key := "mcp-label-3";
    assert key != [] && key !in Mcp1.labels && key !in Mcp2.labels && key !in Mcp4.labels;
    OneLabelClaims(ng, key, "test3", Mcp1);
    OneLabelClaims(ng, key, "test3", Mcp2);
    OneLabelClaims(ng, key, "test3", Mcp3);
    OneLabelClaims(ng, key, "test3", Mcp4);
    OneLabelClaims(ng, key, "test3", Mcp5);
  }

  /** So both pools are bound: the resolver has no single-pool rule. */
  lemma TwoPoolsFixture()
    ensures FindTreesOpenshift(TestPools, [SelectorGroup("mcp-label-3", "test3")])
         == Success([Tree(SelectorGroup("mcp-label-3", "test3"), [Mcp3, Mcp5], None)])
  {
    var ng := SelectorGroup("mcp-label-3", "test3");
    Label3Matches();
    assert PoolsByName(TestPools, ng) == [];
    OneBoundGroup(TestPools, ng, [Mcp3, Mcp5]);
  }

  /** The selector `mcp-label=notFound` matches none of the test pools. */
  lemma NotFoundMatchesNothing()
    ensures PoolsBySelector(TestPools, SelectorGroup("mcp-label", "notFound")) == []
  {
    var key := "mcp-label";
    var ng := SelectorGroup(key, "notFound");
    assert key != [] && key !in Mcp1.labels && key !in Mcp2.labels && key !in Mcp3.labels;
    assert key !in Mcp4.labels && key !in Mcp5.labels;
    OneLabelClaims(ng, key, "notFound", Mcp1);
    OneLabelClaims(ng, key, "notFound", Mcp2);
    OneLabelClaims(ng, key, "notFound", Mcp3);
    OneLabelClaims(ng, key, "notFound", Mcp4);
    OneLabelClaims(ng, key, "notFound", Mcp5);
    var f := (p: MachineConfigPool) => SelectorClaims(ng, p);
    assert !f(Mcp1) && !f(Mcp2) && !f(Mcp3) && !f(Mcp4) && !f(Mcp5);
    KeepNone(f, Mcp1, Mcp2, Mcp3, Mcp4, Mcp5);
  }

  /** A second node group whose selector matches nothing fails the call with
      that selector, although the first one resolves. */
  lemma NotFoundFixture()
    ensures FindTreesOpenshift(TestPools, [SelectorGroup("mcp-label-2a", "test2a"), SelectorGroup("mcp-label", "notFound")])
         == Failure(NoPoolFound(Some(LabelSelector(map["mcp-label" := "notFound"], []))))
  {
    var good := SelectorGroup("mcp-label-2a", "test2a");
    var bad := SelectorGroup("mcp-label", "notFound");
    Label2aMatches();
    assert ResolveNodeGroup(TestPools, good).Bound?;
    NotFoundFails();
    FindTreesOpenshiftStep(TestPools, good, [bad]);
    assert [good] + [bad] == [good, bad];
  }

  lemma NotFoundFails()
    ensures FindTreesOpenshift(TestPools, [SelectorGroup("mcp-label", "notFound")])
         == Failure(NoPoolFound(Some(LabelSelector(map["mcp-label" := "notFound"], []))))
  {
    var bad := SelectorGroup("mcp-label", "notFound");
    NotFoundMatchesNothing();
    assert PoolsByName(TestPools, bad) == [];
    assert ResolveNodeGroup(TestPools, bad) == Unresolved(NoPoolFound(bad.mcpSelector));
    FindTreesOpenshiftStep(TestPools, bad, []);
    assert [bad] + [] == [bad];
  }

  /** The pool name `mcp2` designates `mcp2` alone. */
  lemma NameMatchesMcp2(ng: NodeGroup)
    requires ng.poolName == Some("mcp2")
    ensures PoolsByName(TestPools, ng) == [Mcp2]
  {
    var f := (p: MachineConfigPool) => NameClaims(ng, p);
    assert !f(Mcp1) && f(Mcp2) && !f(Mcp3) && !f(Mcp4) && !f(Mcp5);
    KeepSecond(f, Mcp1, Mcp2, Mcp3, Mcp4, Mcp5);
  }

  lemma Label2Claims(ng: NodeGroup)
    requires ng.mcpSelector == Some(LabelSelector(map["mcp-label-2" := "test2"], []))
    ensures !SelectorClaims(ng, Mcp1) && SelectorClaims(ng, Mcp2) && !SelectorClaims(ng, Mcp3)
    ensures SelectorClaims(ng, Mcp4) && !SelectorClaims(ng, Mcp5)
  {
    var key := "mcp-label-2";
    assert key != [] && key !in Mcp1.labels && key !in Mcp3.labels && key !in Mcp5.labels;
    OneLabelClaims(ng, key, "test2", Mcp1);
    OneLabelClaims(ng, key, "test2", Mcp2);
    OneLabelClaims(ng, key, "test2", Mcp3);
    OneLabelClaims(ng, key, "test2", Mcp4);
    OneLabelClaims(ng, key, "test2", Mcp5);
  }

  /** The selector `mcp-label-2=test2` matches `mcp2` and `mcp4`. */
  lemma Label2Matches(ng: NodeGroup)
    requires ng.mcpSelector == Some(LabelSelector(map["mcp-label-2" := "test2"], []))
    ensures PoolsBySelector(TestPools, ng) == [Mcp2, Mcp4]
  {
    Label2Claims(ng);
    var f := (p: MachineConfigPool) => SelectorClaims(ng, p);
    assert !f(Mcp1) && f(Mcp2) && !f(Mcp3) && f(Mcp4) && !f(Mcp5);
    KeepSecondFourth(f, Mcp1, Mcp2, Mcp3, Mcp4, Mcp5);
  }

  /** A pool named by the node group and also matched by its selector is
      listed twice, name match first. */
  lemma NameAndSelectorFixture()
    ensures FindTreesOpenshift(TestPools, [NodeGroup(None, Some("mcp2"), Some(LabelSelector(map["mcp-label-2" := "test2"], [])), None)])
         == Success([Tree(NodeGroup(None, Some("mcp2"), Some(LabelSelector(map["mcp-label-2" := "test2"], [])), None), [Mcp2, Mcp2, Mcp4], None)])
  {
    var ng := NodeGroup(None, Some("mcp2"), Some(LabelSelector(map["mcp-label-2" := "test2"], [])), None);
    NameMatchesMcp2(ng);
    Label2Matches(ng);
    assert [Mcp2] + [Mcp2, Mcp4] == [Mcp2, Mcp2, Mcp4];
    OneBoundGroup(TestPools, ng, [Mcp2, Mcp2, Mcp4]);
  }

  // ----- MachineConfigPoolDuplicates -----

  /** One tree listing two pools of the same name is reported, naming it. */
  lemma SamePoolNameTwiceFixture(ng: NodeGroup, p: MachineConfigPool, q: MachineConfigPool)
    requires p.name == q.name
    ensures MachineConfigPoolDuplicates([Tree(ng, [p, q], None)]) == Fail(PoolSelectedTwice({p.name}))
  {
    var t := Tree(ng, [p, q], None);
    assert Flatten([t]) == t.pools;
    var r := MachineConfigPoolDuplicates([t]);
    assert t.pools[0].name == p.name && t.pools[1].name == p.name;
    assert NameRepeated(t.pools, p.name);
    assert forall n :: NameRepeated(t.pools, n) ==> n == p.name;
    assert r.error.poolNames == {p.name};
  }

  /** Two pools of different names pass. */
  lemma DistinctPoolNamesFixture(ng: NodeGroup, p: MachineConfigPool, q: MachineConfigPool)
    requires p.name != q.name
    ensures MachineConfigPoolDuplicates([Tree(ng, [p, q], None)]) == Pass
  {
    assert Flatten([Tree(ng, [p, q], None)]) == [p, q];
  }

  // ----- NodeGroups -----

  function McpGroup(sel: LabelSelector): NodeGroup {
    NodeGroup(None, None, Some(sel), None)
  }

  function NodeSelectorGroup(sel: LabelSelector): NodeGroup {
    NodeGroup(None, None, None, Some(sel))
  }

  function NamedGroup(name: string, sel: LabelSelector): NodeGroup {
    NodeGroup(Some(name), None, Some(sel), None)
  }

  /** A first group with no selector fails, whatever follows it. */
  lemma NoSelectorFixture(ng: NodeGroup, rest: seq<NodeGroup>)
    requires ng.mcpSelector.None? && ng.nodeSelector.None?
    ensures NodeGroups([ng] + rest) == Fail(MissingSelector)
  {
    assert ([ng] + rest)[0] == ng;
  }

  /** A first group with both selectors fails, whatever follows it. */
  lemma BothSelectorsFixture(ng: NodeGroup, rest: seq<NodeGroup>)
    requires ng.mcpSelector.Some? && ng.nodeSelector.Some?
    ensures NodeGroups([ng] + rest) == Fail(MultipleSelectors)
  {
    assert ([ng] + rest)[0] == ng;
  }

  /** Two groups with the same MachineConfigPool selector fail, naming it. */
  lemma SameMcpSelectorFixture(sel: LabelSelector)
    ensures NodeGroups([McpGroup(sel), McpGroup(sel)]) == Fail(DuplicateMcpSelectors({sel}))
  {
    var ngs := [McpGroup(sel), McpGroup(sel)];
    assert SelectorsExclusive(ngs);
    assert CheckSelectorExclusivity(ngs).Pass?;
    SameMcpSelectorReported(ngs[0], ngs[1], sel);
  }

  lemma SameMcpSelectorReported(a: NodeGroup, b: NodeGroup, sel: LabelSelector)
    requires a.mcpSelector == Some(sel) && b.mcpSelector == Some(sel)
    ensures CheckMcpSelectorDuplicates([a, b]) == Fail(DuplicateMcpSelectors({sel}))
  {
    var ngs := [a, b];
    assert McpSelectors(ngs) == [Some(sel), Some(sel)];
    RepeatedPair(sel);
    assert RepeatedValues(McpSelectors(ngs)) == {sel};
  }

  /** Two groups with the same node selector fail, naming it. */
  lemma SameNodeSelectorFixture(sel: LabelSelector)
    ensures NodeGroups([NodeSelectorGroup(sel), NodeSelectorGroup(sel)]) == Fail(DuplicateNodeSelectors({sel}))
  {
    var ngs := [NodeSelectorGroup(sel), NodeSelectorGroup(sel)];
    assert SelectorsExclusive(ngs);
    assert CheckSelectorExclusivity(ngs).Pass?;
    assert McpSelectors(ngs) == [None, None];
    assert CheckMcpSelectorDuplicates(ngs).Pass?;
    SameNodeSelectorReported(ngs[0], ngs[1], sel);
  }

  lemma SameNodeSelectorReported(a: NodeGroup, b: NodeGroup, sel: LabelSelector)
    requires a.nodeSelector == Some(sel) && b.nodeSelector == Some(sel)
    ensures CheckNodeSelectorDuplicates([a, b]) == Fail(DuplicateNodeSelectors({sel}))
  {
    var ngs := [a, b];
    assert NodeSelectors(ngs) == [Some(sel), Some(sel)];
    RepeatedPair(sel);
    assert RepeatedValues(NodeSelectors(ngs)) == {sel};
  }

  /** Different node selectors pass, even when one's labels include the other's. */
  lemma DifferentNodeSelectorsFixture(s1: LabelSelector, s2: LabelSelector)
    requires s1 != s2 && WellFormed(s1) && WellFormed(s2)
    ensures NodeGroups([NodeSelectorGroup(s1), NodeSelectorGroup(s2)]) == Pass
  {
    var ngs := [NodeSelectorGroup(s1), NodeSelectorGroup(s2)];
    assert SelectorsExclusive(ngs);
    assert SelectorsParse(ngs);
    assert DistinctPresent(McpSelectors(ngs));
    assert NodeSelectors(ngs) == [Some(s1), Some(s2)];
    assert DistinctPresent(NodeSelectors(ngs));
    assert NamesValid(ngs);
    assert DistinctPresent(Names(ngs));
  }

  /** A MachineConfigPool selector may equal the node selector of another
      group: the two kinds are checked apart. */
  lemma MixedSelectorsFixture(s1: LabelSelector, s2: LabelSelector)
    requires s1 != s2 && WellFormed(s1) && WellFormed(s2)
    ensures NodeGroups([McpGroup(s1), McpGroup(s2), NodeSelectorGroup(s1)]) == Pass
  {
    var ngs := [McpGroup(s1), McpGroup(s2), NodeSelectorGroup(s1)];
    assert SelectorsExclusive(ngs);
    assert SelectorsParse(ngs);
    assert McpSelectors(ngs) == [Some(s1), Some(s2), None];
    assert DistinctPresent(McpSelectors(ngs));
    assert NodeSelectors(ngs) == [None, None, Some(s1)];
    assert DistinctPresent(NodeSelectors(ngs));
    assert NamesValid(ngs);
    assert DistinctPresent(Names(ngs));
  }

  /** A selector with an unknown operator is the one reported malformed. */
  lemma BadOperatorFixture(key: string, op: string, values: seq<string>)
    requires !KnownOperator(op)
    ensures NodeGroups([McpGroup(LabelSelector(map[], [Requirement(key, op, values)]))])
         == Fail(MalformedSelectors([LabelSelector(map[], [Requirement(key, op, values)])]))
  {
    var sel := LabelSelector(map[], [Requirement(key, op, values)]);
    var ngs := [McpGroup(sel)];
    UnknownOperatorMalformed(sel, 0);
    assert SelectorsExclusive(ngs);
    assert MalformedFrom(ngs, 1, sel) == [];
    assert MalformedFrom(ngs, 0, Empty) == [sel];
  }

  /** A single named group with a well-formed MachineConfigPool selector
      passes every check before the name rule. */
  lemma NamedGroupPassesSelectorChecks(name: string, sel: LabelSelector)
    requires WellFormed(sel)
    ensures var ngs := [NamedGroup(name, sel)];
      && CheckSelectorExclusivity(ngs).Pass? && CheckMcpSelectorDuplicates(ngs).Pass?
      && CheckNodeSelectorDuplicates(ngs).Pass? && CheckLabelSelectors(ngs).Pass?
  {
    var ngs := [NamedGroup(name, sel)];
    assert SelectorsExclusive(ngs) && SelectorsParse(ngs);
    assert McpSelectors(ngs) == [Some(sel)];
    assert NodeSelectors(ngs) == [None];
  }

  /** Once the first four checks pass, the name rule decides, then the
      duplicate-name check. */
  lemma NameRuleDecides(ngs: seq<NodeGroup>)
    requires CheckSelectorExclusivity(ngs).Pass? && CheckMcpSelectorDuplicates(ngs).Pass?
    requires CheckNodeSelectorDuplicates(ngs).Pass? && CheckLabelSelectors(ngs).Pass?
    ensures NodeGroups(ngs) == if CheckNameHygiene(ngs).Fail? then CheckNameHygiene(ngs) else CheckNameDuplicates(ngs)
  {
  }

  /** The name rule on a single named group. */
  lemma OneNameHygiene(ng: NodeGroup, name: string)
    requires ng.name == Some(name)
    ensures CheckNameHygiene([ng]) == if ValidName(name) then Pass else Fail(InvalidName(name))
  {
    var ngs := [ng];
    var r := NameHygieneFrom(ngs, 0);
    if !ValidName(name) {
      var i :| 0 <= i < 1 && FirstBadName(ngs, 0, i) && r.error == InvalidName(ngs[i].name.value);
    }
  }

  /** A single group never repeats a name. */
  lemma OneGroupNoDuplicateNames(ng: NodeGroup)
    ensures CheckNameDuplicates([ng]) == Pass
  {
    assert DistinctPresent(Names([ng]));
  }

  /** A node group name is reported exactly when it fails the name rule. */
  lemma NameFixture(name: string, sel: LabelSelector)
    requires WellFormed(sel)
    ensures !ValidName(name) ==> NodeGroups([NamedGroup(name, sel)]) == Fail(InvalidName(name))
    ensures ValidName(name) ==> NodeGroups([NamedGroup(name, sel)]) == Pass
  {
    var ngs := [NamedGroup(name, sel)];
    NamedGroupPassesSelectorChecks(name, sel);
    NameRuleDecides(ngs);
    OneNameHygiene(ngs[0], name);
    OneGroupNoDuplicateNames(ngs[0]);
  }

  /** The names of the unit tests: one with an inner space, one of white
      space only and the empty one are refused; `mcp-test` is accepted. */
  lemma TestNamesFixture()
    ensures !ValidName("mcp test") && !ValidName("  \t  ") && !ValidName("")
    ensures ValidName("mcp-test")
  {
    assert "mcp test"[3] == ' ';
    assert "  \t  "[0] == ' ';
  }

  /** Once the first five checks hold, only duplicated names can fail. */
  lemma OnlyNamesLeft(ngs: seq<NodeGroup>)
    requires SelectorsExclusive(ngs) && DistinctPresent(McpSelectors(ngs)) && DistinctPresent(NodeSelectors(ngs))
    requires SelectorsParse(ngs) && NamesValid(ngs)
    ensures NodeGroups(ngs) == CheckNameDuplicates(ngs)
  {
    EarlierChecksPass(ngs);
    assert CheckNameHygiene(ngs).Pass?;
    NameRuleDecides(ngs);
  }

  /** The four checks before the name rule pass when their properties hold. */
  lemma EarlierChecksPass(ngs: seq<NodeGroup>)
    requires SelectorsExclusive(ngs) && DistinctPresent(McpSelectors(ngs)) && DistinctPresent(NodeSelectors(ngs))
    requires SelectorsParse(ngs)
    ensures CheckSelectorExclusivity(ngs).Pass? && CheckMcpSelectorDuplicates(ngs).Pass?
    ensures CheckNodeSelectorDuplicates(ngs).Pass? && CheckLabelSelectors(ngs).Pass?
  {
    assert forall i :: 0 <= i < |ngs| ==> HasSelector(ngs[i]);
  }

  lemma TwoNamedGroupsPassEarlierChecks(name: string, s1: LabelSelector, s2: LabelSelector)
    requires ValidName(name) && s1 != s2 && WellFormed(s1) && WellFormed(s2)
    ensures var ngs := [NamedGroup(name, s1), NamedGroup(name, s2)];
      && SelectorsExclusive(ngs) && DistinctPresent(McpSelectors(ngs)) && DistinctPresent(NodeSelectors(ngs))
      && SelectorsParse(ngs) && NamesValid(ngs)
  {
    var ngs := [NamedGroup(name, s1), NamedGroup(name, s2)];
    assert SelectorsExclusive(ngs);
    assert SelectorsParse(ngs);
    assert McpSelectors(ngs) == [Some(s1), Some(s2)];
    assert NodeSelectors(ngs) == [None, None];
  }

  /** Two groups carrying the same valid name fail, naming it. */
  lemma SameNameFixture(name: string, s1: LabelSelector, s2: LabelSelector)
    requires ValidName(name) && s1 != s2 && WellFormed(s1) && WellFormed(s2)
    ensures NodeGroups([NamedGroup(name, s1), NamedGroup(name, s2)]) == Fail(DuplicateNames({name}))
  {
    var ngs := [NamedGroup(name, s1), NamedGroup(name, s2)];
    TwoNamedGroupsPassEarlierChecks(name, s1, s2);
    OnlyNamesLeft(ngs);
    SameNameReported(ngs[0], ngs[1], name);
  }

  lemma SameNameReported(a: NodeGroup, b: NodeGroup, name: string)
    requires a.name == Some(name) && b.name == Some(name)
    ensures CheckNameDuplicates([a, b]) == Fail(DuplicateNames({name}))
  {
    var ngs := [a, b];
    assert Names(ngs) == [Some(name), Some(name)];
    RepeatedPair(name);
  }

  /** A value present twice is the only repeated one. */
  lemma RepeatedPair<T(!new)>(x: T)
    ensures RepeatedValues([Some(x), Some(x)]) == {x}
  {
    var s := [Some(x), Some(x)];
    assert s[0] == Some(x) && s[1] == Some(x);
    assert x in RepeatedValues(s);
  }

  // ----- EqualNamespacedDSSlicesByName -----

  /** The same names in another order and other namespaces agree. */
  lemma SameNamesFixture(ns1: string, ns2: string, ns3: string, ns4: string, a: string, b: string)
    ensures EqualNamespacedDSSlicesByName([NamespacedName(ns1, a), NamespacedName(ns2, b)],
                                          [NamespacedName(ns3, b), NamespacedName(ns4, a)]) == Pass
  {
    assert DaemonSetNames([NamespacedName(ns1, a), NamespacedName(ns2, b)]) == [a, b];
    assert DaemonSetNames([NamespacedName(ns3, b), NamespacedName(ns4, a)]) == [b, a];
    assert multiset([a, b]) == multiset([b, a]);
  }

  /** A name listed once on one side and twice on the other disagrees, even
      at equal length. */
  lemma DifferentNamesFixture(ns: string, a: string, b: string)
    requires a != b
    ensures EqualNamespacedDSSlicesByName([NamespacedName(ns, a), NamespacedName(ns, b)],
                                          [NamespacedName(ns, a), NamespacedName(ns, a)]).Fail?
  {
    assert DaemonSetNames([NamespacedName(ns, a), NamespacedName(ns, b)]) == [a, b];
    assert DaemonSetNames([NamespacedName(ns, a), NamespacedName(ns, a)]) == [a, a];
    assert multiset([a, b])[b] == 1;
    assert multiset([a, a])[b] == 0;
  }
}

=== FILE: gostrings.dfy ===
/** The parts of Go's `strings` package the operator relies on, over Unicode
    code points (`char`): `TrimSpace`, `Replace` and `Index`. */
module GoStrings {
  import opened Wrappers
  import opened Collections

  /** Go's `unicode.IsSpace`: the Latin-1 spaces plus the remaining
      characters of the Unicode White_Space property. */
  predicate IsSpace(c: char) {
    || c == '\t' || c == '\n' || c == '\U{000B}' || c == '\U{000C}' || c == '\r' || c == ' '
    || c == '\U{0085}' || c == '\U{00A0}' || c == '\U{1680}'
    || ('\U{2000}' <= c <= '\U{200A}')
    || c == '\U{2028}' || c == '\U{2029}' || c == '\U{202F}' || c == '\U{205F}' || c == '\U{3000}'
  }

  /** `r` is the slice `s[a..b]` for some `a` and `b` with nothing but
      white space before `a` and from `b` on. */
  predicate SliceInsideSpace(s: string, r: string) {
    exists a, b :: 0 <= a <= b <= |s| && r == s[a..b] && SpaceOutside(s, a, b)
  }

  /** Everything in `s` before position `a` and from position `b` on is
      white space. */
  predicate SpaceOutside(s: string, a: int, b: int) {
    forall k :: 0 <= k < |s| && (k < a || b <= k) ==> IsSpace(s[k])
  }

  /** Drops leading white space; the result is a suffix of `s`. */
  function TrimLeft(s: string): (r: string)
    ensures |r| <= |s| && r == s[|s| - |r|..]
    ensures forall k :: 0 <= k < |s| - |r| ==> IsSpace(s[k])
    ensures r == [] || !IsSpace(r[0])
    ensures r == s <==> s == [] || !IsSpace(s[0])
  {
    if s != [] && IsSpace(s[0]) then
      var r := TrimLeft(s[1..]);
      assert forall k :: 1 <= k < |s| - |r| ==> s[k] == s[1..][k - 1];
      r
    else s
  }

  /** Drops trailing white space; the result is a prefix of `s`. */
  function TrimRight(s: string): (r: string)
    ensures |r| <= |s| && r == s[..|r|]
    ensures forall k :: |r| <= k < |s| ==> IsSpace(s[k])
    ensures r == [] || !IsSpace(r[|r| - 1])
    ensures r == s <==> s == [] || !IsSpace(s[|s| - 1])
  {
    if s != [] && IsSpace(s[|s| - 1]) then
      var r := TrimRight(s[..|s| - 1]);
      assert forall k :: |r| <= k < |s| - 1 ==> s[k] == s[..|s| - 1][k];
      r
    else s
  }

  /** Go's `strings.TrimSpace`: a slice of `s` with no white space at either end. */
  function TrimSpace(s: string): (r: string)
    ensures |r| <= |s|
    ensures |r| == |s| ==> r == s
    ensures r == [] || (!IsSpace(r[0]) && !IsSpace(r[|r| - 1]))
    ensures r == s <==> s == [] || (!IsSpace(s[0]) && !IsSpace(s[|s| - 1]))
    ensures SliceInsideSpace(s, r)
  {
    TrimSpaceKeepsInput(s);
    TrimSpaceSlice(s);
    TrimRight(TrimLeft(s))
  }

  /** Trimming both ends shortens the input unless nothing is trimmed. */
  lemma TrimSpaceKeepsInput(s: string)
    ensures |TrimRight(TrimLeft(s))| == |s| ==> TrimRight(TrimLeft(s)) == s
    ensures TrimRight(TrimLeft(s)) == s <==> s == [] || (!IsSpace(s[0]) && !IsSpace(s[|s| - 1]))
  {
    var l := TrimLeft(s);
    var r := TrimRight(l);
    assert r == s ==> l == s;
  }

  /** Trimming both ends leaves a slice of the input with white space only
      around it. */
  lemma TrimSpaceSlice(s: string)
    ensures SliceInsideSpace(s, TrimRight(TrimLeft(s)))
  {
    var l := TrimLeft(s);
    var r := TrimRight(l);
    TrimBothEnds(s, l, r);
    var a, b := |s| - |l|, |s| - |l| + |r|;
    assert SpaceOutside(s, a, b);
    assert 0 <= a <= b <= |s| && r == s[a..b];
  }

  /** A prefix `r` of a suffix `l` of `s` is the slice of `s` between them. */
  lemma SliceOfSuffix(s: string, l: string, r: string)
    requires |l| <= |s| && l == s[|s| - |l|..]
    requires |r| <= |l| && r == l[..|r|]
    ensures r == s[|s| - |l|..|s| - |l| + |r|]
    ensures forall k :: |s| - |l| + |r| <= k < |s| ==> s[k] == l[k - (|s| - |l|)]
  {
  }

  /** Dropping white space from the left then from the right end of `s`
      leaves the slice of `s` that starts where the first step stopped,
      with white space only after it. */
  lemma TrimBothEnds(s: string, l: string, r: string)
    requires |l| <= |s| && l == s[|s| - |l|..]
    requires |r| <= |l| && r == l[..|r|]
    requires forall k :: |r| <= k < |l| ==> IsSpace(l[k])
    ensures r == s[|s| - |l|..|s| - |l| + |r|]
    ensures forall k :: |s| - |l| + |r| <= k < |s| ==> IsSpace(s[k])
  {
    var a := |s| - |l|;
    SliceOfSuffix(s, l, r);
    forall k | a + |r| <= k < |s|
      ensures IsSpace(s[k])
    {
      assert s[k] == l[k - a];
      assert |r| <= k - a < |l|;
    }
  }

  /** The test "is not `c`". */
  function Other(c: char): char -> bool {
    x => x != c
  }

  /** Go's `strings.Replace(s, string(c), "", -1)`: every `c` removed, the
      other characters kept in order. */
  function RemoveAll(s: string, c: char): (r: string)
    ensures r == Filter(Other(c), s)
    ensures |r| == |s| - multiset(s)[c]
    ensures c !in r
    ensures forall x :: x != c ==> multiset(r)[x] == multiset(s)[x]
  {
    if s == [] then []
    else
      assert s == [s[0]] + s[1..];
      (if s[0] == c then [] else [s[0]]) + RemoveAll(s[1..], c)
  }

  /** Whether `sub` occurs in `s` starting at position `k`. */
  predicate OccursAt(s: string, sub: string, k: nat) {
    k + |sub| <= |s| && s[k..k + |sub|] == sub
  }

  /** Go's `strings.Index` searching from position `from`: the first
      occurrence of `sub` at or after `from`. */
  function IndexFrom(s: string, sub: string, from: nat): (r: Option<nat>)
    requires from <= |s|
    ensures r.Some? ==> from <= r.value && OccursAt(s, sub, r.value)
    ensures r.Some? ==> forall j :: from <= j < r.value ==> !OccursAt(s, sub, j)
    ensures r.None? ==> forall j :: from <= j ==> !OccursAt(s, sub, j)
    decreases |s| - from
  {
    if OccursAt(s, sub, from) then Some(from)
    else if from == |s| then None
    else IndexFrom(s, sub, from + 1)
  }

  /** Go's `strings.Index`: the position of the first occurrence of `sub`. */
  function Index(s: string, sub: string): (r: Option<nat>)
    ensures r.Some? ==> OccursAt(s, sub, r.value) && forall j :: 0 <= j < r.value ==> !OccursAt(s, sub, j)
    ensures r.None? <==> forall j :: !OccursAt(s, sub, j)
  {
    IndexFrom(s, sub, 0)
  }

  /** Go's `strings.Replace(s, pat, rep, 1)`: the first occurrence of `pat`
      replaced by `rep`. An empty `pat` matches at the very start. */
  function ReplaceFirst(s: string, pat: string, rep: string): (r: string)
    ensures pat != [] && Index(s, pat).None? ==> r == s
    ensures pat != [] && Index(s, pat).Some? ==>
      var k := Index(s, pat).value;
      r == s[..k] + rep + s[k + |pat|..]
    ensures pat == [] ==> r == rep + s
  {
    if pat == [] then rep + s
    else
      match Index(s, pat)
      case None => s
      case Some(k) => s[..k] + rep + s[k + |pat|..]
  }
}

=== FILE: nodegroup.dfy ===
/** Resolution of node groups into trees: each node group bound to the
    MachineConfigPools (or, on hosted control planes, to the node-pool
    selector) it designates. */
module NodeGroupTrees {
  import opened Wrappers
  import opened Selectors
  import opened Api
  import opened Collections

  /** A node group with the pools it resolved to. `nodePoolSelector` is only
      set by the hosted-control-plane resolver. */
  datatype Tree = Tree(
    nodeGroup: NodeGroup,
    pools: seq<MachineConfigPool>,
    nodePoolSelector: Option<LabelSelector>)

  /** `Tree.Clone`: copies the node group and the pools one by one. The
      node-pool selector is not copied. */
  method Clone(t: Tree) returns (c: Tree)
    ensures c.nodeGroup == t.nodeGroup
    ensures |c.pools| == |t.pools| && forall i :: 0 <= i < |c.pools| ==> c.pools[i] == t.pools[i]
    ensures c.nodePoolSelector.None?
    ensures t.nodePoolSelector.None? ==> c == t
  {
    var pools: seq<MachineConfigPool> := [];
    for i := 0 to |t.pools|
      invariant pools == t.pools[..i]
    {
      pools := pools + [t.pools[i]];
    }
    c := Tree(t.nodeGroup, pools, None);
  }

  /** The node groups of `trees`, in order. */
  function NodeGroupsOf(trees: seq<Tree>): (r: seq<NodeGroup>)
    ensures |r| == |trees| && forall i :: 0 <= i < |trees| ==> r[i] == trees[i].nodeGroup
  {
    seq(|trees|, i requires 0 <= i < |trees| => trees[i].nodeGroup)
  }

  lemma NodeGroupsOfCons(t: Tree, rest: seq<Tree>)
    ensures NodeGroupsOf([t] + rest) == [t.nodeGroup] + NodeGroupsOf(rest)
  {
    assert forall i :: 0 < i <= |rest| ==> ([t] + rest)[i] == rest[i - 1];
  }

  /** The label HyperShift puts on the nodes of a node pool. */
  const NodePoolLabel := "hypershift.openshift.io/node-pool"

  function NodePoolSelectorFor(poolName: string): LabelSelector {
    LabelSelector(map[NodePoolLabel := poolName], [])
  }

  predicate HasPoolName(ng: NodeGroup) {
    ng.poolName.Some?
  }

  /** `FindTreesHCP`: one tree per node group naming a pool, in input order,
      each with no MachineConfigPools and a selector on the node-pool label. */
  function FindTreesHCP(ngs: seq<NodeGroup>): (trees: seq<Tree>)
    ensures NodeGroupsOf(trees) == Filter(HasPoolName, ngs)
    ensures forall t :: t in trees ==>
      && t.nodeGroup.poolName.Some?
      && t.pools == []
      && t.nodePoolSelector == Some(NodePoolSelectorFor(t.nodeGroup.poolName.value))
  {
    if ngs == [] then []
    else
      var rest := FindTreesHCP(ngs[1..]);
      if ngs[0].poolName.None? then rest
      else
        var t := Tree(ngs[0], [], Some(NodePoolSelectorFor(ngs[0].poolName.value)));
        NodeGroupsOfCons(t, rest);
        [t] + rest
  }

  /** The node-pool selector of a hosted-control-plane tree selects exactly
      the nodes labelled with the pool's name. */
  lemma NodePoolSelectorSelectsPool(poolName: string, labels: Labels)
    ensures WellFormed(NodePoolSelectorFor(poolName))
    ensures Matches(NodePoolSelectorFor(poolName), labels) <==> NodePoolLabel in labels && labels[NodePoolLabel] == poolName
  {
    MatchLabelsSemantics(map[NodePoolLabel := poolName], labels);
  }

  // ----- OpenShift resolution -----

  /** Why a node group could not be bound. */
  datatype ResolveError =
    | PoolNameAmbiguous(poolName: string, count: nat)
    | NoPoolFound(selector: Option<LabelSelector>)

  /** What one node group resolves to: skipped (bad selector), bound to a
      non-empty pool list, or an error that aborts the whole resolution. */
  datatype Binding = Skipped | Bound(pools: seq<MachineConfigPool>) | Unresolved(error: ResolveError)

  /** The node group designates `p` by its exact name. */
  predicate NameClaims(ng: NodeGroup, p: MachineConfigPool) {
    ng.poolName == Some(p.name)
  }

  /** The node group's MachineConfigPool selector parses and matches `p`. */
  predicate SelectorClaims(ng: NodeGroup, p: MachineConfigPool) {
    ng.mcpSelector.Some? && WellFormed(ng.mcpSelector.value) && Matches(ng.mcpSelector.value, p.labels)
  }

  predicate Claims(ng: NodeGroup, p: MachineConfigPool) {
    NameClaims(ng, p) || SelectorClaims(ng, p)
  }

  /** The candidates carrying the node group's pool name, in candidate order;
      none when the node group names no pool. */
  function PoolsByName(pools: seq<MachineConfigPool>, ng: NodeGroup): (r: seq<MachineConfigPool>)
    ensures forall p :: p in r <==> p in pools && NameClaims(ng, p)
  {
    if ng.poolName.None? then [] else Filter((p: MachineConfigPool) => NameClaims(ng, p), pools)
  }

  /** The candidates the node group's MachineConfigPool selector matches, in
      candidate order; none when it has no selector or the selector does not parse. */
  function PoolsBySelector(pools: seq<MachineConfigPool>, ng: NodeGroup): (r: seq<MachineConfigPool>)
    ensures forall p :: p in r <==> p in pools && SelectorClaims(ng, p)
  {
    if ng.mcpSelector.None? || !WellFormed(ng.mcpSelector.value) then []
    else Filter((p: MachineConfigPool) => SelectorClaims(ng, p), pools)
  }

  /** Both collections list the candidates they keep in candidate order and
      as often as they occur among the candidates. */
  lemma CollectedInCandidateOrder(pools: seq<MachineConfigPool>, ng: NodeGroup)
    ensures exists idx :: IndexesInOrder(idx, PoolsByName(pools, ng), pools)
    ensures exists idx :: IndexesInOrder(idx, PoolsBySelector(pools, ng), pools)
    ensures forall p ::
      multiset(PoolsByName(pools, ng))[p] == (if ng.poolName == Some(p.name) then multiset(pools)[p] else 0)
    ensures forall p ::
      multiset(PoolsBySelector(pools, ng))[p] == (if SelectorClaims(ng, p) then multiset(pools)[p] else 0)
  {
    var byName := (p: MachineConfigPool) => NameClaims(ng, p);
    var bySelector := (p: MachineConfigPool) => SelectorClaims(ng, p);
    if ng.poolName.None? {
      assert IndexesInOrder([], PoolsByName(pools, ng), pools);
    } else {
      var idx := FilterKeepsOrder(byName, pools);
      assert PoolsByName(pools, ng) == Filter(byName, pools);
    }
    if ng.mcpSelector.None? || !WellFormed(ng.mcpSelector.value) {
      assert IndexesInOrder([], PoolsBySelector(pools, ng), pools);
    } else {
      var idx := FilterKeepsOrder(bySelector, pools);
      assert PoolsBySelector(pools, ng) == Filter(bySelector, pools);
    }
    forall p
      ensures multiset(PoolsByName(pools, ng))[p] == if ng.poolName == Some(p.name) then multiset(pools)[p] else 0
      ensures multiset(PoolsBySelector(pools, ng))[p] == if SelectorClaims(ng, p) then multiset(pools)[p] else 0
    {
      FilterCount(byName, pools, p);
      FilterCount(bySelector, pools, p);
    }
  }

  /** One iteration of the loop of `FindTreesOpenshift`. */
  function ResolveNodeGroup(pools: seq<MachineConfigPool>, ng: NodeGroup): (b: Binding)
    ensures b.Unresolved? && b.error.PoolNameAmbiguous? <==> ng.poolName.Some? && |PoolsByName(pools, ng)| > 1
    ensures b.Skipped? <==> |PoolsByName(pools, ng)| <= 1 && ng.mcpSelector.Some? && !WellFormed(ng.mcpSelector.value)
    ensures b.Bound? ==> b.pools != [] && b.pools == PoolsByName(pools, ng) + PoolsBySelector(pools, ng)
    ensures b.Bound? ==> forall p :: p in b.pools <==> p in pools && Claims(ng, p)
    ensures b.Unresolved? && b.error.NoPoolFound? <==>
      |PoolsByName(pools, ng)| <= 1 && !b.Skipped? && !exists p :: p in pools && Claims(ng, p)
    ensures b.Unresolved? && b.error.PoolNameAmbiguous? ==>
      b.error == PoolNameAmbiguous(ng.poolName.value, |PoolsByName(pools, ng)|)
    ensures b.Unresolved? && b.error.NoPoolFound? ==> b.error == NoPoolFound(ng.mcpSelector)
  {
    var byName := PoolsByName(pools, ng);
    if ng.poolName.Some? && |byName| > 1 then
      Unresolved(PoolNameAmbiguous(ng.poolName.value, |byName|))
    else if ng.mcpSelector.Some? && !WellFormed(ng.mcpSelector.value) then
      Skipped
    else
      var bySelector := PoolsBySelector(pools, ng);
      var found := byName + bySelector;
      assert forall p :: p in found <==> p in pools && Claims(ng, p) by {
        forall p
          ensures p in found <==> p in pools && Claims(ng, p)
        {
          assert p in found <==> multiset(byName)[p] > 0 || multiset(bySelector)[p] > 0;
        }
      }
      assert found != [] ==> found[0] in found;
      if found == [] then Unresolved(NoPoolFound(ng.mcpSelector)) else Bound(found)
  }

  predicate Kept(pools: seq<MachineConfigPool>, ng: NodeGroup) {
    !ResolveNodeGroup(pools, ng).Skipped?
  }

  /** Node group `i` is the first that cannot be bound, and fails with `e`. */
  predicate FirstUnresolved(pools: seq<MachineConfigPool>, ngs: seq<NodeGroup>, i: nat, e: ResolveError)
    requires i < |ngs|
  {
    && ResolveNodeGroup(pools, ngs[i]) == Unresolved(e)
    && forall j :: 0 <= j < i ==> !ResolveNodeGroup(pools, ngs[j]).Unresolved?
  }

  lemma FirstUnresolvedShift(pools: seq<MachineConfigPool>, ngs: seq<NodeGroup>, rest: Result<seq<Tree>, ResolveError>)
    requires ngs != [] && !ResolveNodeGroup(pools, ngs[0]).Unresolved?
    requires rest.Failure? ==> exists i :: 0 <= i < |ngs[1..]| && FirstUnresolved(pools, ngs[1..], i, rest.error)
    ensures rest.Failure? ==> exists i :: 0 <= i < |ngs| && FirstUnresolved(pools, ngs, i, rest.error)
  {
    if rest.Failure? {
      var i :| 0 <= i < |ngs[1..]| && FirstUnresolved(pools, ngs[1..], i, rest.error);
      assert FirstUnresolved(pools, ngs, i + 1, rest.error) by {
        forall j | 0 <= j < i + 1
          ensures !ResolveNodeGroup(pools, ngs[j]).Unresolved?
        {
          if j > 0 {
            assert ngs[j] == ngs[1..][j - 1];
          }
        }
      }
    }
  }

  /** `FindTreesOpenshift`: all or nothing. Fails with the error of the first
      node group that cannot be bound; otherwise one tree per node group that
      is not skipped, in input order. */
  function FindTreesOpenshift(pools: seq<MachineConfigPool>, ngs: seq<NodeGroup>): (r: Result<seq<Tree>, ResolveError>)
    ensures r.Success? <==> forall i :: 0 <= i < |ngs| ==> !ResolveNodeGroup(pools, ngs[i]).Unresolved?
    ensures r.Failure? ==> exists i :: 0 <= i < |ngs| && FirstUnresolved(pools, ngs, i, r.error)
    ensures r.Success? ==> NodeGroupsOf(r.value) == Filter((ng: NodeGroup) => Kept(pools, ng), ngs)
    ensures r.Success? ==> forall t :: t in r.value ==>
      t.nodePoolSelector.None? && ResolveNodeGroup(pools, t.nodeGroup) == Bound(t.pools)
  {
    if ngs == [] then Success([])
    else
      var rest := FindTreesOpenshift(pools, ngs[1..]);
      assert forall j :: 1 <= j < |ngs| ==> ngs[j] == ngs[1..][j - 1];
      match ResolveNodeGroup(pools, ngs[0])
      case Unresolved(e) =>
        assert FirstUnresolved(pools, ngs, 0, e);
        Failure(e)
      case Skipped =>
        FirstUnresolvedShift(pools, ngs, rest);
        rest
      case Bound(found) =>
        FirstUnresolvedShift(pools, ngs, rest);
        if rest.Failure? then Failure(rest.error)
        else
          var t := Tree(ngs[0], found, None);
          NodeGroupsOfCons(t, rest.value);
          Success([t] + rest.value)
  }

  /** What a successful resolution binds: every tree's pools are non-empty,
      are exactly the candidates its node group claims, and list the
      name-matched pools first, then the selector-matched ones, each part in
      candidate order (a pool matched both ways appears twice). */
  lemma ResolvedTreeContents(pools: seq<MachineConfigPool>, ngs: seq<NodeGroup>, t: Tree)
    requires FindTreesOpenshift(pools, ngs).Success? && t in FindTreesOpenshift(pools, ngs).value
    ensures t.pools != []
    ensures t.pools == PoolsByName(pools, t.nodeGroup) + PoolsBySelector(pools, t.nodeGroup)
    ensures forall p :: p in t.pools <==> p in pools && Claims(t.nodeGroup, p)
    ensures t.nodeGroup in ngs
  {
    var trees := FindTreesOpenshift(pools, ngs).value;
    assert t.nodeGroup in NodeGroupsOf(trees) by {
      var k :| 0 <= k < |trees| && trees[k] == t;
    }
  }

  /** A node group with neither a pool name nor a MachineConfigPool selector
      binds nothing, so the whole resolution fails. */
  lemma GroupWithoutPoolSourceFails(pools: seq<MachineConfigPool>, ngs: seq<NodeGroup>, i: nat)
    requires i < |ngs| && ngs[i].poolName.None? && ngs[i].mcpSelector.None?
    ensures FindTreesOpenshift(pools, ngs).Failure?
  {
    assert ResolveNodeGroup(pools, ngs[i]).Unresolved?;
  }

  /** A pool name carried by two candidates fails the whole resolution. */
  lemma AmbiguousPoolNameFails(pools: seq<MachineConfigPool>, ngs: seq<NodeGroup>, i: nat, a: nat, b: nat)
    requires i < |ngs| && ngs[i].poolName.Some?
    requires a < b < |pools| && pools[a].name == ngs[i].poolName.value && pools[b].name == ngs[i].poolName.value
    ensures FindTreesOpenshift(pools, ngs).Failure?
  {
    var ng := ngs[i];
    FilterTwoHits((p: MachineConfigPool) => NameClaims(ng, p), pools, a, b);
    assert ResolveNodeGroup(pools, ng).Unresolved?;
  }

  /** A node group whose MachineConfigPool selector does not parse, and which
      names no pool, is dropped without an error. */
  lemma MalformedSelectorSkipped(pools: seq<MachineConfigPool>, ng: NodeGroup)
    requires ng.mcpSelector.Some? && !WellFormed(ng.mcpSelector.value) && ng.poolName.None?
    ensures FindTreesOpenshift(pools, [ng]) == Success([])
  {
    assert ResolveNodeGroup(pools, ng).Skipped?;
  }

  /** Node groups are resolved front to back: the first group's binding
      decides whether it fails the call, is dropped, or heads the trees of
      the remaining groups. */
  lemma FindTreesOpenshiftStep(pools: seq<MachineConfigPool>, ng: NodeGroup, ngs: seq<NodeGroup>)
    ensures ResolveNodeGroup(pools, ng).Unresolved? ==>
      FindTreesOpenshift(pools, [ng] + ngs) == Failure(ResolveNodeGroup(pools, ng).error)
    ensures ResolveNodeGroup(pools, ng).Skipped? ==>
      FindTreesOpenshift(pools, [ng] + ngs) == FindTreesOpenshift(pools, ngs)
    ensures ResolveNodeGroup(pools, ng).Bound? && FindTreesOpenshift(pools, ngs).Success? ==>
      FindTreesOpenshift(pools, [ng] + ngs)
      == Success([Tree(ng, ResolveNodeGroup(pools, ng).pools, None)] + FindTreesOpenshift(pools, ngs).value)
    ensures ResolveNodeGroup(pools, ng).Bound? && FindTreesOpenshift(pools, ngs).Failure? ==>
      FindTreesOpenshift(pools, [ng] + ngs) == FindTreesOpenshift(pools, ngs)
  {
    var all := [ng] + ngs;
    assert all[0] == ng && all[1..] == ngs;
  }

  // ----- Flattening -----

  /** `flattenTrees`: the pools of every tree, concatenated in tree order,
      duplicates kept. */
  function Flatten(trees: seq<Tree>): (r: seq<MachineConfigPool>)
    ensures forall i, p :: 0 <= i < |trees| && p in trees[i].pools ==> p in r
    ensures forall p :: p in r ==> exists i :: 0 <= i < |trees| && p in trees[i].pools
    ensures |trees| == 1 ==> r == trees[0].pools
  {
    if trees == [] then []
    else
      var rest := Flatten(trees[1..]);
      assert forall i :: 1 <= i < |trees| ==> trees[i] == trees[1..][i - 1];
      assert forall p :: p in rest ==> exists i :: 1 <= i < |trees| && p in trees[i].pools by {
        forall p | p in rest
          ensures exists i :: 1 <= i < |trees| && p in trees[i].pools
        {
          var j :| 0 <= j < |trees[1..]| && p in trees[1..][j].pools;
          assert p in trees[j + 1].pools;
        }
      }
      trees[0].pools + rest
  }

  /** A pool is in the flattened list exactly when some tree lists it. */
  lemma {:induction false} FlattenMembership(trees: seq<Tree>, p: MachineConfigPool)
    ensures p in Flatten(trees) <==> exists i :: 0 <= i < |trees| && p in trees[i].pools
  {
    if trees != [] {
      FlattenMembership(trees[1..], p);
      assert forall i :: 1 <= i < |trees| ==> trees[i] == trees[1..][i - 1];
    }
  }

  /** Flattening distributes over concatenation of tree lists. */
  lemma {:induction false} FlattenAppend(a: seq<Tree>, b: seq<Tree>)
    ensures Flatten(a + b) == Flatten(a) + Flatten(b)
  {
    if a != [] {
      assert (a + b)[0] == a[0] && (a + b)[1..] == a[1..] + b;
      FlattenAppend(a[1..], b);
      assert Flatten(a + b) == a[0].pools + Flatten(a[1..] + b);
    } else {
      assert a + b == b;
    }
  }

  /** `FindMachineConfigPools`: the flattened trees, or the resolver's error
      unchanged. Every pool it returns is a candidate that some node group
      claims. */
  function FindMachineConfigPools(pools: seq<MachineConfigPool>, ngs: seq<NodeGroup>): (r: Result<seq<MachineConfigPool>, ResolveError>)
    ensures FindTreesOpenshift(pools, ngs).Failure? ==> r == Failure(FindTreesOpenshift(pools, ngs).error)
    ensures FindTreesOpenshift(pools, ngs).Success? ==> r == Success(Flatten(FindTreesOpenshift(pools, ngs).value))
    ensures r.Success? ==> forall p :: p in r.value ==> p in pools && exists ng :: ng in ngs && Claims(ng, p)
  {
    var trees :- FindTreesOpenshift(pools, ngs);
    assert forall p :: p in Flatten(trees) ==> p in pools && exists ng :: ng in ngs && Claims(ng, p) by {
      forall p | p in Flatten(trees)
        ensures p in pools && exists ng :: ng in ngs && Claims(ng, p)
      {
        FlattenMembership(trees, p);
        var i :| 0 <= i < |trees| && p in trees[i].pools;
        ResolvedTreeContents(pools, ngs, trees[i]);
      }
    }
    Success(Flatten(trees))
  }
}

=== FILE: objectnames.dfy ===
/** Names of the objects the operator derives from its instance name and a
    MachineConfigPool name. */
module ObjectNames {
  import opened Wrappers
  import opened GoStrings

  /** `GetComponentName`: `instance`, a dash, then `mcp`. */
  function GetComponentName(instance: string, mcp: string): (r: string)
    ensures |r| == |instance| + 1 + |mcp|
    ensures r[..|instance|] == instance && r[|instance|] == '-' && r[|instance| + 1..] == mcp
  {
    instance + "-" + mcp
  }

  /** `GetMachineConfigName`: the component name behind the "51-" prefix. */
  function GetMachineConfigName(instance: string, mcp: string): (r: string)
    ensures r == "51-" + GetComponentName(instance, mcp)
  {
    "51-" + instance + "-" + mcp
  }

  /** `ExtractAssociatedNameFromRTEDaemonset`: the first occurrence of
      `instance` followed by a dash removed; unchanged when there is none. */
  function ExtractAssociatedNameFromRTEDaemonset(dsName: string, instance: string): (r: string)
    ensures Index(dsName, instance + "-").None? ==> r == dsName
    ensures Index(dsName, instance + "-").Some? ==>
      var k := Index(dsName, instance + "-").value;
      && |r| == |dsName| - |instance| - 1
      && r == dsName[..k] + dsName[k + |instance| + 1..]
  {
    ReplaceFirst(dsName, instance + "-", "")
  }

  /** Extracting from a component name gives back the pool name. */
  lemma ExtractInvertsComponentName(instance: string, mcp: string)
    ensures ExtractAssociatedNameFromRTEDaemonset(GetComponentName(instance, mcp), instance) == mcp
  {
    var ds := GetComponentName(instance, mcp);
    assert OccursAt(ds, instance + "-", 0);
    assert Index(ds, instance + "-") == Some(0);
  }

  /** A name that starts with the instance and a dash is the component name
      of what extraction leaves. */
  lemma ComponentNameInvertsExtract(dsName: string, instance: string)
    requires OccursAt(dsName, instance + "-", 0)
    ensures GetComponentName(instance, ExtractAssociatedNameFromRTEDaemonset(dsName, instance)) == dsName
  {
    assert Index(dsName, instance + "-") == Some(0);
    var m := dsName[|instance| + 1..];
    assert dsName == instance + "-" + m;
  }
}

=== FILE: selectors.dfy ===
/** Kubernetes label selectors as the operator uses them: parsed with
    `metav1.LabelSelectorAsSelector` and evaluated with `Matches`. Both
    belong to apimachinery; this module states the behaviour the operator relies
    on (operator set, value-count rules, matching semantics) and leaves the
    label-key grammar and the `String()` rendering out. */
module Selectors {

  type Labels = map<string, string>

  /** A set-based requirement; `operator` is free text because a malformed
      object can carry any operator string. */
  datatype Requirement = Requirement(key: string, operator: string, values: seq<string>)

  datatype LabelSelector = LabelSelector(matchLabels: Labels, matchExpressions: seq<Requirement>)

  const In := "In"
  const NotIn := "NotIn"
  const Exists := "Exists"
  const DoesNotExist := "DoesNotExist"

  /** The zero value of `metav1.LabelSelector`. */
  const Empty := LabelSelector(map[], [])

  predicate KnownOperator(op: string) {
    op == In || op == NotIn || op == Exists || op == DoesNotExist
  }

  /** A requirement parses when its key is non-empty, its operator is one of
      the four known ones, and it carries values exactly for `In`/`NotIn`. */
  predicate ValidRequirement(r: Requirement) {
    && r.key != []
    && KnownOperator(r.operator)
    && (r.operator == In || r.operator == NotIn <==> |r.values| > 0)
  }

  /** `LabelSelectorAsSelector` succeeds. */
  predicate WellFormed(sel: LabelSelector) {
    && (forall k :: k in sel.matchLabels ==> k != [])
    && forall i :: 0 <= i < |sel.matchExpressions| ==> ValidRequirement(sel.matchExpressions[i])
  }

  predicate RequirementMatches(r: Requirement, labels: Labels)
    requires ValidRequirement(r)
  {
    if r.operator == In then r.key in labels && labels[r.key] in r.values
    else if r.operator == NotIn then r.key !in labels || labels[r.key] !in r.values
    else if r.operator == Exists then r.key in labels
    else r.key !in labels
  }

  /** `selector.Matches(labels.Set(labels))`: every match label is present
      with its value, and every requirement holds. */
  predicate Matches(sel: LabelSelector, labels: Labels)
    requires WellFormed(sel)
  {
    && (forall k :: k in sel.matchLabels ==> k in labels && labels[k] == sel.matchLabels[k])
    && forall i :: 0 <= i < |sel.matchExpressions| ==> RequirementMatches(sel.matchExpressions[i], labels)
  }

  /** An operator outside the known four makes the whole selector malformed. */
  lemma UnknownOperatorMalformed(sel: LabelSelector, i: nat)
    requires i < |sel.matchExpressions| && !KnownOperator(sel.matchExpressions[i].operator)
    ensures !WellFormed(sel)
  {
  }

  /** The empty selector parses and matches every label set; a selector of
      match labels alone matches exactly the label sets that contain them. */
  lemma MatchLabelsSemantics(m: Labels, labels: Labels)
    requires forall k :: k in m ==> k != []
    ensures WellFormed(LabelSelector(m, []))
    ensures Matches(LabelSelector(m, []), labels) <==> forall k :: k in m ==> k in labels && labels[k] == m[k]
    ensures WellFormed(Empty) && Matches(Empty, labels)
  {
  }
}

=== FILE: stringorder.dfy ===
/** Go's ordering of strings and the descending sort that
    `sort.SliceStable(s, func(i, j int) bool { return s[i] > s[j] })` performs. */
module StringOrder {

  /** Go's `a < b` on strings compares the UTF-8 bytes lexicographically,
      which orders strings exactly like comparing their code points
      lexicographically; a proper prefix is smaller. */
  predicate Less(a: string, b: string) {
    if a == [] then b != []
    else if b == [] then false
    else if a[0] != b[0] then a[0] < b[0]
    else Less(a[1..], b[1..])
  }

  lemma {:induction false} LessIrreflexive(a: string)
    ensures !Less(a, a)
  {
    if a != [] {
      LessIrreflexive(a[1..]);
    }
  }

  lemma {:induction false} LessTransitive(a: string, b: string, c: string)
    requires Less(a, b) && Less(b, c)
    ensures Less(a, c)
  {
    if a != [] && b != [] && c != [] && a[0] == b[0] && b[0] == c[0] {
      LessTransitive(a[1..], b[1..], c[1..]);
    }
  }

  /** Two strings are equal or one of them is smaller. */
  lemma {:induction false} LessTotal(a: string, b: string)
    ensures a == b || Less(a, b) || Less(b, a)
  {
    if a != [] && b != [] && a[0] == b[0] {
      LessTotal(a[1..], b[1..]);
      assert a == [a[0]] + a[1..] && b == [b[0]] + b[1..];
    }
  }

  lemma {:induction false} LessAsymmetric(a: string, b: string)
    requires Less(a, b)
    ensures !Less(b, a)
  {
    if a != [] && b != [] && a[0] == b[0] {
      LessAsymmetric(a[1..], b[1..]);
    }
  }

  /** Neither string is smaller than the other only when they are equal. */
  lemma Antisymmetric(a: string, b: string)
    requires !Less(a, b) && !Less(b, a)
    ensures a == b
  {
    LessTotal(a, b);
  }

  /** Non-increasing: no element is smaller than one after it. */
  predicate SortedDescending(s: seq<string>) {
    forall i, j :: 0 <= i < j < |s| ==> !Less(s[i], s[j])
  }

  lemma PrependSorted(h: string, t: seq<string>)
    requires SortedDescending(t)
    requires forall y :: y in t ==> !Less(h, y)
    ensures SortedDescending([h] + t)
  {
    var r := [h] + t;
    forall i, j | 0 <= i < j < |r|
      ensures !Less(r[i], r[j])
    {
      assert r[j] == t[j - 1];
      if i > 0 {
        assert r[i] == t[i - 1];
      }
    }
  }

  /** Inserts `x` into a non-increasing sequence, before the first element it
      is not smaller than. */
  function Insert(x: string, s: seq<string>): (r: seq<string>)
    requires SortedDescending(s)
    ensures SortedDescending(r)
    ensures multiset(r) == multiset(s) + multiset{x}
  {
    if s == [] then [x]
    else if !Less(x, s[0]) then
      assert forall y :: y in s ==> !Less(x, y) by {
        forall y | y in s
          ensures !Less(x, y)
        {
          if Less(x, y) {
            var k :| 0 <= k < |s| && s[k] == y;
            LessTotal(y, s[0]);
            if y != s[0] {
              LessTransitive(x, y, s[0]);
            }
          }
        }
      }
      PrependSorted(x, s);
      [x] + s
    else
      var t := Insert(x, s[1..]);
      assert s == [s[0]] + s[1..];
      assert forall y :: y in t ==> !Less(s[0], y) by {
        forall y | y in t
          ensures !Less(s[0], y)
        {
          assert y in multiset(t);
          if y == x {
            LessAsymmetric(x, s[0]);
          } else {
            assert y in multiset(s[1..]);
            var k :| 0 <= k < |s[1..]| && s[1..][k] == y;
            assert s[k + 1] == y;
          }
        }
      }
      PrependSorted(s[0], t);
      [s[0]] + t
  }

  /** Insertion sort into non-increasing order. */
  function SortDescending(s: seq<string>): (r: seq<string>)
    ensures SortedDescending(r)
    ensures multiset(r) == multiset(s)
  {
    if s == [] then []
    else
      assert s == [s[0]] + s[1..];
      Insert(s[0], SortDescending(s[1..]))
  }

  /** The first element of a non-increasing sequence is a largest one, so two
      such arrangements of the same strings start alike. */
  lemma SortedHeadsAgree(a: seq<string>, b: seq<string>)
    requires SortedDescending(a) && SortedDescending(b)
    requires multiset(a) == multiset(b) && a != []
    ensures b != [] && a[0] == b[0]
  {
    assert a[0] in multiset(b);
    var i :| 0 <= i < |b| && b[i] == a[0];
    assert b[0] in multiset(a);
    var j :| 0 <= j < |a| && a[j] == b[0];
    assert !Less(b[0], a[0]) by {
      if i == 0 { LessIrreflexive(a[0]); }
    }
    assert !Less(a[0], b[0]) by {
      if j == 0 { LessIrreflexive(b[0]); }
    }
    Antisymmetric(a[0], b[0]);
  }

  lemma SameTails(a: seq<string>, b: seq<string>)
    requires a != [] && b != [] && a[0] == b[0]
    requires multiset(a) == multiset(b)
    ensures multiset(a[1..]) == multiset(b[1..])
  {
    assert a == [a[0]] + a[1..] && b == [b[0]] + b[1..];
    assert multiset(a[1..]) == multiset(a) - multiset{a[0]};
    assert multiset(b[1..]) == multiset(b) - multiset{b[0]};
  }

  /** A non-increasing arrangement of a multiset of strings is unique. */
  lemma {:induction false} SortedUnique(a: seq<string>, b: seq<string>)
    requires SortedDescending(a) && SortedDescending(b)
    requires multiset(a) == multiset(b)
    ensures a == b
  {
    if a != [] {
      SortedHeadsAgree(a, b);
      SameTails(a, b);
      assert SortedDescending(a[1..]) && SortedDescending(b[1..]);
      SortedUnique(a[1..], b[1..]);
      assert a == [a[0]] + a[1..] && b == [b[0]] + b[1..];
    } else {
      assert |multiset(b)| == 0;
    }
  }

  /** Sorting two sequences gives the same result exactly when they hold the
      same strings the same number of times. */
  lemma SortEqualIffSameMultiset(a: seq<string>, b: seq<string>)
    ensures SortDescending(a) == SortDescending(b) <==> multiset(a) == multiset(b)
  {
    if multiset(a) == multiset(b) {
      SortedUnique(SortDescending(a), SortDescending(b));
    }
  }
}

=== FILE: validation.dfy ===
/** Validation of the declared node groups, of the resolved trees, and of
    the daemon sets the operator expects against those it finds. Go joins
    the messages of one check with "; " while ranging over a map, so their
    order is not defined; errors here carry the set of offending keys. */
module Validation {
  import opened Wrappers
  import opened Selectors
  import opened Api
  import opened Collections
  import opened GoStrings
  import opened StringOrder
  import opened NodeGroupTrees

  datatype ValidationError =
    | PoolSelectedTwice(poolNames: set<string>)
    | MissingSelector
    | MultipleSelectors
    | DuplicateMcpSelectors(selectors: set<LabelSelector>)
    | DuplicateNodeSelectors(selectors: set<LabelSelector>)
    | MalformedSelectors(malformed: seq<LabelSelector>)
    | InvalidName(name: string)
    | DuplicateNames(names: set<string>)
    | DaemonSetsDiffer

  // ----- MachineConfigPoolDuplicates -----

  function PoolNames(pools: seq<MachineConfigPool>): (r: seq<string>)
    ensures |r| == |pools| && forall i :: 0 <= i < |pools| ==> r[i] == pools[i].name
  {
    Map((p: MachineConfigPool) => p.name, pools)
  }

  /** Two positions of the flattened trees hold pools named `n`. */
  predicate NameRepeated(pools: seq<MachineConfigPool>, n: string) {
    exists i, j :: 0 <= i < j < |pools| && pools[i].name == n && pools[j].name == n
  }

  /** `MachineConfigPoolDuplicates`: fails, naming every such pool, when some
      pool name is listed twice across all the trees. */
  function MachineConfigPoolDuplicates(trees: seq<Tree>): (r: Outcome<ValidationError>)
    ensures r.Pass? <==> forall i, j :: 0 <= i < j < |Flatten(trees)| ==> Flatten(trees)[i].name != Flatten(trees)[j].name
    ensures r.Fail? ==> r.error.PoolSelectedTwice? && forall n :: n in r.error.poolNames <==> NameRepeated(Flatten(trees), n)
  {
    var flat := Flatten(trees);
    var dups := Duplicates(PoolNames(flat));
    RepeatedNames(flat);
    if dups == {} then Pass else Fail(PoolSelectedTwice(dups))
  }

  /** The duplicated pool names are the names held at two positions. */
  lemma RepeatedNames(pools: seq<MachineConfigPool>)
    ensures forall n :: n in Duplicates(PoolNames(pools)) <==> NameRepeated(pools, n)
    ensures Duplicates(PoolNames(pools)) == {} <==> forall i, j :: 0 <= i < j < |pools| ==> pools[i].name != pools[j].name
  {
    var names := PoolNames(pools);
    var dups := Duplicates(names);
    forall n
      ensures n in dups <==> NameRepeated(pools, n)
    {
      TwiceIffTwoPositions(names, n);
    }
    if exists i, j :: 0 <= i < j < |pools| && pools[i].name == pools[j].name {
      var i, j :| 0 <= i < j < |pools| && pools[i].name == pools[j].name;
      assert NameRepeated(pools, pools[i].name);
    }
  }

  /** Where the `a`-th pool of tree `i` lands in the flattened list. */
  lemma FlattenPosition(trees: seq<Tree>, i: nat, a: nat)
    requires i < |trees| && a < |trees[i].pools|
    ensures |Flatten(trees[..i])| + a < |Flatten(trees)|
    ensures Flatten(trees)[|Flatten(trees[..i])| + a] == trees[i].pools[a]
  {
    assert trees == trees[..i] + trees[i..];
    FlattenAppend(trees[..i], trees[i..]);
    assert trees[i..][1..] == trees[i + 1..];
    assert Flatten(trees[i..]) == trees[i].pools + Flatten(trees[i + 1..]);
  }

  /** The pools of tree `i` all come before those of any later tree. */
  lemma FlattenPrefixGrows(trees: seq<Tree>, i: nat, j: nat)
    requires i < j <= |trees|
    ensures |Flatten(trees[..j])| >= |Flatten(trees[..i])| + |trees[i].pools|
  {
    assert trees[..j] == trees[..i + 1] + trees[i + 1..j];
    FlattenAppend(trees[..i + 1], trees[i + 1..j]);
    assert trees[..i + 1] == trees[..i] + [trees[i]];
    FlattenAppend(trees[..i], [trees[i]]);
    assert Flatten([trees[i]]) == trees[i].pools + Flatten([]);
  }

  /** A pool name appearing in two different trees is reported. */
  lemma PoolInTwoTreesFails(trees: seq<Tree>, i: nat, j: nat, a: nat, b: nat)
    requires i < j < |trees| && a < |trees[i].pools| && b < |trees[j].pools|
    requires trees[i].pools[a].name == trees[j].pools[b].name
    ensures MachineConfigPoolDuplicates(trees).Fail?
  {
    FlattenPosition(trees, i, a);
    FlattenPosition(trees, j, b);
    FlattenPrefixGrows(trees, i, j);
    var flat := Flatten(trees);
    var x, y := |Flatten(trees[..i])| + a, |Flatten(trees[..j])| + b;
    assert x < y && flat[x].name == flat[y].name;
  }

  /** A pool name listed twice inside one tree is reported too. */
  lemma PoolTwiceInOneTreeFails(trees: seq<Tree>, i: nat, a: nat, b: nat)
    requires i < |trees| && a < b < |trees[i].pools|
    requires trees[i].pools[a].name == trees[i].pools[b].name
    ensures MachineConfigPoolDuplicates(trees).Fail?
  {
    FlattenPosition(trees, i, a);
    FlattenPosition(trees, i, b);
    var flat := Flatten(trees);
    var x, y := |Flatten(trees[..i])| + a, |Flatten(trees[..i])| + b;
    assert x < y && flat[x].name == flat[y].name;
  }

  // ----- NodeGroups: selector exclusivity -----

  /** The node group declares exactly one of the two selectors. */
  predicate OneSelector(ng: NodeGroup) {
    ng.mcpSelector.Some? != ng.nodeSelector.Some?
  }

  function SelectorCountError(ng: NodeGroup): ValidationError {
    if ng.mcpSelector.None? then MissingSelector else MultipleSelectors
  }

  /** Group `i` is the first group from position `k` on that fails `OneSelector`. */
  predicate FirstWithoutOneSelector(ngs: seq<NodeGroup>, k: nat, i: nat)
    requires i < |ngs|
  {
    !OneSelector(ngs[i]) && forall j :: k <= j < i ==> OneSelector(ngs[j])
  }

  /** `nodeGroupsSelector` from position `k`: the first group with no
      selector, or with both, decides the error. `PoolName` plays no part. */
  function SelectorExclusivityFrom(ngs: seq<NodeGroup>, k: nat): (r: Outcome<ValidationError>)
    requires k <= |ngs|
    ensures r.Pass? <==> forall i :: k <= i < |ngs| ==> OneSelector(ngs[i])
    ensures r.Fail? ==> exists i :: k <= i < |ngs| && FirstWithoutOneSelector(ngs, k, i) && r.error == SelectorCountError(ngs[i])
    decreases |ngs| - k
  {
    if k == |ngs| then Pass
    else if ngs[k].mcpSelector.None? && ngs[k].nodeSelector.None? then
      assert FirstWithoutOneSelector(ngs, k, k);
      Fail(MissingSelector)
    else if ngs[k].mcpSelector.Some? && ngs[k].nodeSelector.Some? then
      assert FirstWithoutOneSelector(ngs, k, k);
      Fail(MultipleSelectors)
    else
      var r := SelectorExclusivityFrom(ngs, k + 1);
      assert r.Fail? ==> exists i :: k <= i < |ngs| && FirstWithoutOneSelector(ngs, k, i) && r.error == SelectorCountError(ngs[i]) by {
        if r.Fail? {
          var i :| k + 1 <= i < |ngs| && FirstWithoutOneSelector(ngs, k + 1, i) && r.error == SelectorCountError(ngs[i]);
          assert FirstWithoutOneSelector(ngs, k, i);
        }
      }
      r
  }

  function CheckSelectorExclusivity(ngs: seq<NodeGroup>): Outcome<ValidationError> {
    SelectorExclusivityFrom(ngs, 0)
  }

  // ----- NodeGroups: duplicated selectors and names -----

  function McpSelectors(ngs: seq<NodeGroup>): (r: seq<Option<LabelSelector>>)
    ensures |r| == |ngs| && forall i :: 0 <= i < |ngs| ==> r[i] == ngs[i].mcpSelector
  {
    Map((ng: NodeGroup) => ng.mcpSelector, ngs)
  }

  function NodeSelectors(ngs: seq<NodeGroup>): (r: seq<Option<LabelSelector>>)
    ensures |r| == |ngs| && forall i :: 0 <= i < |ngs| ==> r[i] == ngs[i].nodeSelector
  {
    Map((ng: NodeGroup) => ng.nodeSelector, ngs)
  }

  function Names(ngs: seq<NodeGroup>): (r: seq<Option<string>>)
    ensures |r| == |ngs| && forall i :: 0 <= i < |ngs| ==> r[i] == ngs[i].name
  {
    Map((ng: NodeGroup) => ng.name, ngs)
  }

  /** No two entries hold the same present value; absent entries never clash. */
  predicate DistinctPresent<T(==)>(s: seq<Option<T>>) {
    forall i, j :: 0 <= i < j < |s| && s[i].Some? ==> s[i] != s[j]
  }

  lemma RepeatedValuesEmptyIff<T(!new)>(s: seq<Option<T>>)
    ensures RepeatedValues(s) == {} <==> DistinctPresent(s)
  {
    if !DistinctPresent(s) {
      var i, j :| 0 <= i < j < |s| && s[i].Some? && s[i] == s[j];
      assert s[i].value in RepeatedValues(s);
    }
  }

  /** `nodeGroupsDuplicatesByMCPSelector`: fails, naming every selector
      declared by two node groups. Groups without a MachineConfigPool
      selector are skipped. */
  function CheckMcpSelectorDuplicates(ngs: seq<NodeGroup>): (r: Outcome<ValidationError>)
    ensures r.Pass? <==> DistinctPresent(McpSelectors(ngs))
    ensures r.Fail? ==> r.error.DuplicateMcpSelectors? && forall s :: s in r.error.selectors <==>
      exists i, j :: 0 <= i < j < |ngs| && ngs[i].mcpSelector == Some(s) && ngs[j].mcpSelector == Some(s)
  {
    var dups := RepeatedValues(McpSelectors(ngs));
    RepeatedValuesEmptyIff(McpSelectors(ngs));
    RepeatedMcpSelectorsAt(ngs);
    if dups == {} then Pass else Fail(DuplicateMcpSelectors(dups))
  }

  /** `nodeGroupsDuplicatesByNodeSelector`: the same rule over node selectors. */
  function CheckNodeSelectorDuplicates(ngs: seq<NodeGroup>): (r: Outcome<ValidationError>)
    ensures r.Pass? <==> DistinctPresent(NodeSelectors(ngs))
    ensures r.Fail? ==> r.error.DuplicateNodeSelectors? && forall s :: s in r.error.selectors <==>
      exists i, j :: 0 <= i < j < |ngs| && ngs[i].nodeSelector == Some(s) && ngs[j].nodeSelector == Some(s)
  {
    var dups := RepeatedValues(NodeSelectors(ngs));
    RepeatedValuesEmptyIff(NodeSelectors(ngs));
    RepeatedNodeSelectorsAt(ngs);
    if dups == {} then Pass else Fail(DuplicateNodeSelectors(dups))
  }

  /** `nodeGroupNamesDuplicates`: fails, naming every name two node groups
      carry. Unnamed groups are never counted. */
  function CheckNameDuplicates(ngs: seq<NodeGroup>): (r: Outcome<ValidationError>)
    ensures r.Pass? <==> DistinctPresent(Names(ngs))
    ensures r.Fail? ==> r.error.DuplicateNames? && forall n :: n in r.error.names <==>
      exists i, j :: 0 <= i < j < |ngs| && ngs[i].name == Some(n) && ngs[j].name == Some(n)
  {
    var dups := RepeatedValues(Names(ngs));
    RepeatedValuesEmptyIff(Names(ngs));
    RepeatedNamesAt(ngs);
    if dups == {} then Pass else Fail(DuplicateNames(dups))
  }

  lemma RepeatedMcpSelectorsAt(ngs: seq<NodeGroup>)
    ensures forall s :: s in RepeatedValues(McpSelectors(ngs)) <==>
      exists i, j :: 0 <= i < j < |ngs| && ngs[i].mcpSelector == Some(s) && ngs[j].mcpSelector == Some(s)
  {
    var sels := McpSelectors(ngs);
    forall s | exists i, j :: 0 <= i < j < |ngs| && ngs[i].mcpSelector == Some(s) && ngs[j].mcpSelector == Some(s)
      ensures s in RepeatedValues(sels)
    {
      var i, j :| 0 <= i < j < |ngs| && ngs[i].mcpSelector == Some(s) && ngs[j].mcpSelector == Some(s);
      assert sels[i] == Some(s) && sels[j] == Some(s);
    }
  }

  lemma RepeatedNodeSelectorsAt(ngs: seq<NodeGroup>)
    ensures forall s :: s in RepeatedValues(NodeSelectors(ngs)) <==>
      exists i, j :: 0 <= i < j < |ngs| && ngs[i].nodeSelector == Some(s) && ngs[j].nodeSelector == Some(s)
  {
    var sels := NodeSelectors(ngs);
    forall s | exists i, j :: 0 <= i < j < |ngs| && ngs[i].nodeSelector == Some(s) && ngs[j].nodeSelector == Some(s)
      ensures s in RepeatedValues(sels)
    {
      var i, j :| 0 <= i < j < |ngs| && ngs[i].nodeSelector == Some(s) && ngs[j].nodeSelector == Some(s);
      assert sels[i] == Some(s) && sels[j] == Some(s);
    }
  }

  lemma RepeatedNamesAt(ngs: seq<NodeGroup>)
    ensures forall n :: n in RepeatedValues(Names(ngs)) <==>
      exists i, j :: 0 <= i < j < |ngs| && ngs[i].name == Some(n) && ngs[j].name == Some(n)
  {
    var names := Names(ngs);
    forall n | exists i, j :: 0 <= i < j < |ngs| && ngs[i].name == Some(n) && ngs[j].name == Some(n)
      ensures n in RepeatedValues(names)
    {
      var i, j :| 0 <= i < j < |ngs| && ngs[i].name == Some(n) && ngs[j].name == Some(n);
      assert names[i] == Some(n) && names[j] == Some(n);
    }
  }

  // ----- NodeGroups: selector well-formedness -----

  /** The selector the loop of `nodeGroupLabelSelector` checks for `ng`: its
      node selector if set, else its MachineConfigPool selector, else the one
      left over from the previous iteration. */
  function SelectorInUse(ng: NodeGroup, carried: LabelSelector): LabelSelector {
    if ng.nodeSelector.Some? then ng.nodeSelector.value
    else if ng.mcpSelector.Some? then ng.mcpSelector.value
    else carried
  }

  predicate HasSelector(ng: NodeGroup) {
    ng.mcpSelector.Some? || ng.nodeSelector.Some?
  }

  /** The selector a group declares; the node selector when it has both. */
  function DeclaredSelector(ng: NodeGroup): LabelSelector
    requires HasSelector(ng)
  {
    SelectorInUse(ng, Empty)
  }

  /** The malformed selectors met from position `k` on, in order. */
  function MalformedFrom(ngs: seq<NodeGroup>, k: nat, carried: LabelSelector): (errs: seq<LabelSelector>)
    requires k <= |ngs|
    ensures |errs| <= |ngs| - k
    ensures forall e :: e in errs ==> !WellFormed(e)
    ensures (forall i :: k <= i < |ngs| ==> HasSelector(ngs[i])) ==>
      forall i :: k <= i < |ngs| && !WellFormed(DeclaredSelector(ngs[i])) ==> DeclaredSelector(ngs[i]) in errs
    ensures (forall i :: k <= i < |ngs| ==> HasSelector(ngs[i])) ==>
      (errs == [] <==> forall i :: k <= i < |ngs| ==> WellFormed(DeclaredSelector(ngs[i])))
    ensures forall e :: e in errs ==>
      e == carried || exists i :: k <= i < |ngs| && HasSelector(ngs[i]) && e == DeclaredSelector(ngs[i])
    decreases |ngs| - k
  {
    if k == |ngs| then []
    else
      var sel := SelectorInUse(ngs[k], carried);
      (if WellFormed(sel) then [] else [sel]) + MalformedFrom(ngs, k + 1, sel)
  }

  /** `nodeGroupLabelSelector`: collects every selector that does not parse
      into one error. Once every group declares a selector, it passes exactly
      when every declared selector parses. */
  function CheckLabelSelectors(ngs: seq<NodeGroup>): (r: Outcome<ValidationError>)
    ensures (forall i :: 0 <= i < |ngs| ==> HasSelector(ngs[i])) ==>
      (r.Pass? <==> forall i :: 0 <= i < |ngs| ==> WellFormed(DeclaredSelector(ngs[i])))
    ensures r.Fail? ==> r.error.MalformedSelectors? && r.error.malformed != []
    ensures r.Fail? ==> forall e :: e in r.error.malformed ==> !WellFormed(e)
    ensures r.Fail? && (forall i :: 0 <= i < |ngs| ==> HasSelector(ngs[i])) ==>
      forall i :: 0 <= i < |ngs| && !WellFormed(DeclaredSelector(ngs[i])) ==> DeclaredSelector(ngs[i]) in r.error.malformed
    ensures r.Fail? ==> forall e :: e in r.error.malformed ==>
      exists i :: 0 <= i < |ngs| && HasSelector(ngs[i]) && e == DeclaredSelector(ngs[i])
  {
    var errs := MalformedFrom(ngs, 0, Empty);
    assert errs != [] ==> !WellFormed(errs[0]) by {
      if errs != [] { assert errs[0] in errs; }
    }
    if errs == [] then Pass else Fail(MalformedSelectors(errs))
  }

  // ----- NodeGroups: name hygiene -----

  /** The test of `nodeGroupsNames`: trimming surrounding white space and then
      deleting every ' ' gives back the name, and the name is not empty. */
  predicate NameAccepted(name: string) {
    var stripped := RemoveAll(TrimSpace(name), ' ');
    stripped == name && stripped != []
  }

  /** What that test means: non-empty, no white space at either end, no ' '
      anywhere (other white space inside the name is allowed). */
  predicate ValidName(name: string) {
    name != [] && !IsSpace(name[0]) && !IsSpace(name[|name| - 1]) && ' ' !in name
  }

  lemma NameAcceptedIffValid(name: string)
    ensures NameAccepted(name) <==> ValidName(name)
  {
    if NameAccepted(name) {
      AcceptedIsValid(name);
    }
    if ValidName(name) {
      assert TrimSpace(name) == name;
      RemoveAllAbsent(name, ' ');
    }
  }

  lemma AcceptedIsValid(name: string)
    requires NameAccepted(name)
    ensures ValidName(name)
  {
    var trimmed := TrimSpace(name);
    var stripped := RemoveAll(trimmed, ' ');
    assert |stripped| <= |trimmed| <= |name|;
    assert trimmed == name;
  }

  /** Removing a character that does not occur changes nothing. */
  lemma RemoveAllAbsent(s: string, c: char)
    requires c !in s
    ensures RemoveAll(s, c) == s
  {
    assert forall x :: x in s ==> Other(c)(x);
    FilterExtremes(Other(c), s);
  }

  predicate FirstBadName(ngs: seq<NodeGroup>, k: nat, i: nat)
    requires i < |ngs|
  {
    && ngs[i].name.Some? && !ValidName(ngs[i].name.value)
    && forall j :: k <= j < i && ngs[j].name.Some? ==> ValidName(ngs[j].name.value)
  }

  /** `nodeGroupsNames` from position `k`: the first present name that fails
      the test is reported; absent names are skipped. */
  function NameHygieneFrom(ngs: seq<NodeGroup>, k: nat): (r: Outcome<ValidationError>)
    requires k <= |ngs|
    ensures r.Pass? <==> forall i :: k <= i < |ngs| && ngs[i].name.Some? ==> ValidName(ngs[i].name.value)
    ensures r.Fail? ==> exists i :: k <= i < |ngs| && FirstBadName(ngs, k, i) && r.error == InvalidName(ngs[i].name.value)
    decreases |ngs| - k
  {
    if k == |ngs| then Pass
    else
      var rest := NameHygieneFrom(ngs, k + 1);
      match ngs[k].name
      case None =>
        BadNameShift(ngs, k, rest);
        rest
      case Some(name) =>
        NameAcceptedIffValid(name);
        if !NameAccepted(name) then
          assert FirstBadName(ngs, k, k);
          Fail(InvalidName(name))
        else
          BadNameShift(ngs, k, rest);
          rest
  }

  lemma BadNameShift(ngs: seq<NodeGroup>, k: nat, rest: Outcome<ValidationError>)
    requires k < |ngs| && (ngs[k].name.Some? ==> ValidName(ngs[k].name.value))
    requires rest.Fail? ==> exists i :: k + 1 <= i < |ngs| && FirstBadName(ngs, k + 1, i) && rest.error == InvalidName(ngs[i].name.value)
    ensures rest.Fail? ==> exists i :: k <= i < |ngs| && FirstBadName(ngs, k, i) && rest.error == InvalidName(ngs[i].name.value)
  {
    if rest.Fail? {
      var i :| k + 1 <= i < |ngs| && FirstBadName(ngs, k + 1, i) && rest.error == InvalidName(ngs[i].name.value);
      assert FirstBadName(ngs, k, i);
    }
  }

  function CheckNameHygiene(ngs: seq<NodeGroup>): Outcome<ValidationError> {
    NameHygieneFrom(ngs, 0)
  }

  // ----- NodeGroups -----

  /** The properties the six checks enforce, stated over the whole list. */
  predicate SelectorsExclusive(ngs: seq<NodeGroup>) {
    forall i :: 0 <= i < |ngs| ==> OneSelector(ngs[i])
  }

  predicate SelectorsParse(ngs: seq<NodeGroup>)
    requires SelectorsExclusive(ngs)
  {
    forall i :: 0 <= i < |ngs| ==> WellFormed(DeclaredSelector(ngs[i]))
  }

  predicate NamesValid(ngs: seq<NodeGroup>) {
    forall i :: 0 <= i < |ngs| && ngs[i].name.Some? ==> ValidName(ngs[i].name.value)
  }

  /** `NodeGroups`: the six checks in order; the first that fails decides the
      error, which is that check's own error, and the list passes when all
      six hold. */
  function NodeGroups(ngs: seq<NodeGroup>): (r: Outcome<ValidationError>)
    ensures r.Pass? <==>
      && SelectorsExclusive(ngs)
      && DistinctPresent(McpSelectors(ngs))
      && DistinctPresent(NodeSelectors(ngs))
      && SelectorsParse(ngs)
      && NamesValid(ngs)
      && DistinctPresent(Names(ngs))
    ensures !SelectorsExclusive(ngs) ==> r.Fail? && (r.error.MissingSelector? || r.error.MultipleSelectors?)
    ensures SelectorsExclusive(ngs) && !DistinctPresent(McpSelectors(ngs)) ==>
      r.Fail? && r.error.DuplicateMcpSelectors?
    ensures (SelectorsExclusive(ngs) && DistinctPresent(McpSelectors(ngs)) && !DistinctPresent(NodeSelectors(ngs))) ==>
      r.Fail? && r.error.DuplicateNodeSelectors?
    ensures (SelectorsExclusive(ngs) && DistinctPresent(McpSelectors(ngs)) && DistinctPresent(NodeSelectors(ngs))
             && !SelectorsParse(ngs)) ==>
      r.Fail? && r.error.MalformedSelectors?
    ensures (SelectorsExclusive(ngs) && DistinctPresent(McpSelectors(ngs)) && DistinctPresent(NodeSelectors(ngs))
             && SelectorsParse(ngs) && !NamesValid(ngs)) ==>
      r.Fail? && r.error.InvalidName?
    ensures (SelectorsExclusive(ngs) && DistinctPresent(McpSelectors(ngs)) && DistinctPresent(NodeSelectors(ngs))
             && SelectorsParse(ngs) && NamesValid(ngs) && !DistinctPresent(Names(ngs))) ==>
      r.Fail? && r.error.DuplicateNames?
    ensures !SelectorsExclusive(ngs) ==> r == CheckSelectorExclusivity(ngs)
    ensures (SelectorsExclusive(ngs) && !DistinctPresent(McpSelectors(ngs))) ==> r == CheckMcpSelectorDuplicates(ngs)
    ensures (SelectorsExclusive(ngs) && DistinctPresent(McpSelectors(ngs)) && !DistinctPresent(NodeSelectors(ngs))) ==>
      r == CheckNodeSelectorDuplicates(ngs)
    ensures (SelectorsExclusive(ngs) && DistinctPresent(McpSelectors(ngs)) && DistinctPresent(NodeSelectors(ngs))
             && !SelectorsParse(ngs)) ==>
      r == CheckLabelSelectors(ngs)
    ensures (SelectorsExclusive(ngs) && DistinctPresent(McpSelectors(ngs)) && DistinctPresent(NodeSelectors(ngs))
             && SelectorsParse(ngs) && !NamesValid(ngs)) ==>
      r == CheckNameHygiene(ngs)
    ensures (SelectorsExclusive(ngs) && DistinctPresent(McpSelectors(ngs)) && DistinctPresent(NodeSelectors(ngs))
             && SelectorsParse(ngs) && NamesValid(ngs)) ==>
      r == CheckNameDuplicates(ngs)
  {
    var exclusive := CheckSelectorExclusivity(ngs);
    if exclusive.Fail? then exclusive
    else
      var mcpDups := CheckMcpSelectorDuplicates(ngs);
      if mcpDups.Fail? then mcpDups
      else
        var nodeDups := CheckNodeSelectorDuplicates(ngs);
        if nodeDups.Fail? then nodeDups
        else
          var parse := CheckLabelSelectors(ngs);
          if parse.Fail? then parse
          else
            var names := CheckNameHygiene(ngs);
            if names.Fail? then names
            else CheckNameDuplicates(ngs)
  }

  /** An unknown operator in the selector a group declares makes validation
      fail: if the selectors are not exclusive an earlier check fails, and
      otherwise the selector does not parse. */
  lemma UnknownOperatorRejected(ngs: seq<NodeGroup>, i: nat, e: nat)
    requires i < |ngs| && HasSelector(ngs[i])
    requires e < |DeclaredSelector(ngs[i]).matchExpressions|
    requires !KnownOperator(DeclaredSelector(ngs[i]).matchExpressions[e].operator)
    ensures NodeGroups(ngs).Fail?
  {
    UnknownOperatorMalformed(DeclaredSelector(ngs[i]), e);
  }

  // ----- EqualNamespacedDSSlicesByName -----

  function DaemonSetNames(s: seq<NamespacedName>): (r: seq<string>)
    ensures |r| == |s| && forall i :: 0 <= i < |s| ==> r[i] == s[i].name
  {
    Map((ds: NamespacedName) => ds.name, s)
  }

  /** `EqualNamespacedDSSlicesByName`: both lists sorted by name, descending,
      then compared name by name. They agree exactly when they hold the same
      names the same number of times; namespaces are ignored. */
  function EqualNamespacedDSSlicesByName(s1: seq<NamespacedName>, s2: seq<NamespacedName>): (r: Outcome<ValidationError>)
    ensures r.Pass? <==> multiset(DaemonSetNames(s1)) == multiset(DaemonSetNames(s2))
    ensures |s1| != |s2| ==> r.Fail?
    ensures r.Fail? ==> r.error == DaemonSetsDiffer
  {
    var n1 := DaemonSetNames(s1);
    var n2 := DaemonSetNames(s2);
    SortEqualIffSameMultiset(n1, n2);
    assert |multiset(n1)| == |s1| && |multiset(n2)| == |s2|;
    if SortDescending(n1) == SortDescending(n2) then Pass else Fail(DaemonSetsDiffer)
  }
}

=== FILE: wrappers.dfy ===
/** Failure-compatible return types shared by every module of the model:
    `Option` for the nilable pointers of the Go code, `Result` for a
    `(value, error)` pair and `Outcome` for a bare `error` return. */
module Wrappers {

  datatype Option<+T> = None | Some(value: T)

  datatype Result<+R, +E> = Success(value: R) | Failure(error: E) {
    predicate IsFailure() {
      Failure?
    }

    function PropagateFailure<U>(): Result<U, E>
      requires Failure?
    {
      Failure(error)
    }

    function Extract(): R
      requires Success?
    {
      value
    }
  }

  /** `Pass` is a nil `error`; `Fail` carries what the error message reports. */
  datatype Outcome<+E> = Pass | Fail(error: E)
}
